=== FILE: README.md ===
# Effective accumulated temperature — a Dafny model of the core

This project models the computational core of *Effective-integrated-temperature*.
The application tracks how much warmth has accumulated above a base temperature
since a reference day. It uses that to tell when a developmental stage of a pest
(egg → larva, larva → adult, ...) is complete. Each stage may wait for a
prerequisite stage to complete before it starts accumulating. The model covers
these parts:

- **Stage accumulator** (`CalcTargetData`, module `Accumulator`).
  - A stage adds `max(t - base, 0)` each day.
  - A stage with a prerequisite carries a nested accumulator for that
    prerequisite, and adds nothing while the prerequisite is unfinished.
  - The mutable object with its nested `before` object becomes an immutable
    chain `Acc`. `calc_accum` becomes the pure `Step`, and `Run` folds `Step`
    over a series of days.
- **Table builder** (`calc_table_data`, modules `Table` and `Keyed`).
  - The date columns come from a dictionary keyed by date. The rows are stored
    with pandas `.loc`. Both behave as "insert, or overwrite in place", which
    `Keyed.Upsert` / `Keyed.FromPairs` model once for both uses.
  - The header row holds the raw temperatures and their sum.
  - Each stage gets one row with its day-by-day totals. Only the first stage of
    an organism carries the organism's name.
- **Grid painter decisions** (`TemperatureTableGrid._output_table`, module
  `Classifier`). This covers the row status, the single "completion day" cell
  and the alternating shading of organism groups. The widget calls are not
  modelled.
- **Date-gap helpers** (`has_all_day`, `get_empty_days`, module `DateGaps`).
  Dates are day numbers.
- **Input validators** (`target_add_check`, `target_check`,
  `target_data_check`, module `Validation`) and **seed resolution**
  (`create_default_target`, module `Seeds`).
- **Scraper string logic** (module `Scraping`):
  - the numeric-prefix pattern of `_get_float_value`;
  - the month caches of `get_temperature` / `get_average_temperature`, with the
    rows and cells they read;
  - the `prec_no=` / `block_no=` extraction;
  - the filtering and de-duplication of `get_prefecture_list` /
    `get_block_list`.
- **Settings file** (`Config`, module `Settings`): the defaults `collect` fills
  in, the fresh settings of `initComponent`, and the location and debug
  accessors. Python exceptions become `Failure(...)` values of `Basics.Result`.

## Behaviour worth knowing

The code behaves as follows in places a reader may not expect:

- **Gated stages start late.** A stage with a prerequisite adds nothing on the
  day its prerequisite completes. It starts adding on the following day
  (`Accumulator.DayGate`, `Accumulator.ExampleGatedStage`).
- **An empty series fails.** If the series is empty and some organism has a
  stage, `target_temp_list[-1]` raises IndexError. The build does not produce
  an empty report (`Table.BuildFailsIff`).
- **Short rows are not guarded.** `row[1][-10]` is not guarded against short
  rows. With fewer than five date columns it raises IndexError. With five to
  nine it lands on a leading cell, and comparing against a text cell raises
  TypeError (`Classifier.Lookback`, `Classifier.ShortRowLookback`).
- **No range checks.** The validators check presence and type only. A negative
  base or threshold is accepted (`Validation.NoRangeCheck`).
- **Dangling and unknown references fail.**
  - A seed prerequisite id not seen earlier in the same organism raises KeyError.
  - An unknown organism kind reaches `raise Error(...)`. `Error` is not a
    defined name, so this raises NameError (`Seeds.CreateTargetsSucceedsIff`).
- **Row 1 is never highlighted.** When the first organism has at least one
  stage, row 1 is that organism's first stage row. Otherwise it belongs to a
  later organism. The highlight condition requires `i > 1`, so that row never gets
  a highlighted cell.
- **The two DEBUG defaults disagree.** `initComponent` writes `True`;
  `collect` fills a missing DEBUG with `FALSE` (`Settings.DebugDefaultsDiffer`).
- **A cached month page is never refreshed.** Once a month's page is cached, a
  later day of that month is read from the old page. A row the site has
  published since then raises IndexError (`Scraping.StaleMonthPage`).
- **The average-temperature cache ignores the year.** It is keyed on the month
  alone (`Scraping.AverageIgnoresYear`).

## Model

| member | source | states |
|---|---|---|
| Accumulator.Effective | src/controllers.py:33-38 | A day contributes the part of the temperature above the base: never negative, at least `t - base`, and either 0 or exactly `t - base`. |
| Accumulator.Init | src/controllers.py:15-22 | A fresh accumulator is unfinished at 0.0 in the requested mode, and so is every prerequisite accumulator built below it. Its chain of prerequisite accumulators, all in non-self mode, mirrors the stage's `refer` chain. |
| Accumulator.Step | src/controllers.py:24-43 | One `calc_accum` call. The total never decreases. `finish` is never reset. A finished prerequisite accumulator is frozen. Otherwise `finish` is set exactly when the new total reaches the threshold, even while the prerequisite is unfinished. While the prerequisite is unfinished the stage adds nothing. An accumulator that is neither frozen nor gated gains exactly `max(t - base, 0)`. Its nested prerequisite takes exactly one call of its own until it finishes, then stays as it is. |
| Accumulator.Run | src/controllers.py:68-73 | Feeding a series keeps the stage and the mode, keeps the chain well formed, never lowers the total and never clears `finish`. |
| Accumulator.Totals | src/controllers.py:69-73 | The recorded list has one value per day. Value `k-1` is the total after the first `k` days. |
| Accumulator.TotalsMonotone | src/controllers.py:33-39 | The reported total after `i` days is at most the total after `j >= i` days. |
| Accumulator.RootTotal | src/controllers.py:37-39 | For a stage without a prerequisite, the total after the series is the sum of `max(t - base, 0)` over its days. |
| Accumulator.PrerequisiteTotal | src/controllers.py:24-43 | A prerequisite accumulator (non-self mode) whose stage has no prerequisite finishes exactly once its running sum of `max(t - base, 0)` has reached the threshold on some day. Until it finishes it holds exactly that running sum. |
| Accumulator.MidTotal | src/controllers.py:24-43 | A prerequisite accumulator (non-self mode) that is itself gated finishes exactly once its gated sum has reached the threshold on some day. The gated sum counts a day only when its own prerequisite was finished before it. Until it finishes it holds exactly that gated sum. |
| Accumulator.FrozenStays | src/controllers.py:28-29 | A finished prerequisite accumulator returns its stored state on every later call. |
| Accumulator.SelfKeepsAdding | src/controllers.py:28-41 | The top-level (self-mode) accumulator keeps adding after it finishes. |
| Accumulator.PrerequisiteRunsAlone | src/controllers.py:31-36 | Inside a stage's chain, the prerequisite's state is exactly what it would reach if fed the same days on its own. |
| Accumulator.MidRunsAlone | src/controllers.py:31-36 | One link further down the chain: a prerequisite accumulator that is still unfinished has fed every day to its own prerequisite, which is then what it would be if run alone. |
| Accumulator.DayGate | src/controllers.py:31-39 | A gated stage gains day `i`'s effective temperature if and only if its prerequisite was already finished before day `i`. So it gains nothing on the day the prerequisite finishes. |
| Accumulator.GatedTotal | src/controllers.py:31-39 | A gated stage's total is the sum of the effective temperatures of the days after its prerequisite finished. |
| Accumulator.ZeroUntilPrerequisiteFinished | src/controllers.py:31-36 | A fresh gated stage stays at 0 through the day its prerequisite finishes. |
| Accumulator.ExampleRootStage | src/controllers.py:24-43 | Base 9.7, threshold 20.0, days 5, 12, 20 give totals 0.0, 2.3, 12.6, unfinished. |
| Accumulator.ExampleGatedStage | src/controllers.py:24-43 | A prerequisite finishing on day 1 makes its child add nothing on day 1 and 12.0 on each later day. |
| Keyed.FirstIndex | src/controllers.py:50 | The position of the first pair carrying a key: every earlier pair has another key. |
| Keyed.Upsert | src/controllers.py:85 | Storing under a new key appends. Storing under an existing key overwrites that entry in place. |
| Keyed.LastValue | src/controllers.py:50 | The value stored for a key is that of its last pair: no later pair has the key. |
| Keyed.FromPairsKeys | src/controllers.py:50 | The stored keys are distinct and are exactly the keys of the pairs. |
| Keyed.FromPairsValues | src/controllers.py:50 | Each stored entry holds the value of the last pair with its key. |
| Keyed.FromPairsOrder | src/controllers.py:50-51 | Entries are ordered by the first occurrence of their keys. |
| Keyed.FromPairsDistinct | src/controllers.py:63-85 | Pairs with distinct keys are stored unchanged, in order. |
| Keyed.FromPairsFirst | src/controllers.py:50-51 | The first entry carries the key of the first pair. |
| Keyed.LastValueAt | src/controllers.py:50 | A pair with no later pair of the same key gives the stored value. |
| Table.ColumnsDates | src/controllers.py:50-51 | The columns hold each date of the series exactly once, and no other date. |
| Table.ColumnsTemps | src/controllers.py:50-52 | Each column holds the temperature of the last observation of its date. |
| Table.ColumnsOrder | src/controllers.py:50-51 | Columns appear in the order in which their dates first appear. A later duplicate keeps the first position. |
| Table.ColumnsSize | src/controllers.py:50-51 | There are no more columns than observations, and there are none only when the series is empty. |
| Table.StageRow | src/controllers.py:68-84 | A stage row copies the name, state, base and threshold. Its values are the day-by-day totals of a fresh self-mode accumulator. Its final column is the total after the whole series and equals the last day value. It fails with IndexError exactly when there are no columns. |
| Table.StageRows | src/controllers.py:65-85 | An organism's block has one row per stage and fails exactly when there are no columns and the organism has a stage. |
| Table.StageRowsAt | src/controllers.py:75-85 | Row `i` of a block is keyed by the stage id. Only the first row carries the organism name; the others get `""`. |
| Table.AccumulateSeries | src/controllers.py:68-73 | The per-stage loop records, after day `k`, the total of a fresh accumulator fed the first `k` days. |
| Table.BuildFailsIff | src/controllers.py:65-85 | The build fails exactly when the series is empty and some organism has a stage. |
| Table.AllRowsFailsIff | src/controllers.py:65-85 | The rows of all organisms fail exactly when there are no temperatures and some organism has a stage. |
| Table.AllRowsLayout | src/controllers.py:65-85 | Stage `s` of organism `j` is row `Offset(j) + s`. It is keyed by the stage id and named only when `s == 0`. |
| Table.AllRowsSize | src/controllers.py:65-85 | There is one row per stage of every organism. |
| Table.BuildTableShape | src/controllers.py:58-85 | With distinct non-zero stage ids, the table is the header row followed by every stage row in order, with nothing overwritten. |
| Table.HeaderRowFirst | src/controllers.py:61-63 | Row 0 carries key 0. Unless a stage with id 0 overwrote it, row 0 is the header: the raw temperatures and their sum. |
| Classifier.Lookback | src/app.py:124 | `row[1][-10]` fails with IndexError with fewer than five date columns. It is a date column only with ten or more; otherwise it is a leading cell. |
| Classifier.RowStatus | src/app.py:119-145 | A short row fails with IndexError even for the header. Row 0 is the header whatever it holds. Failures are only IndexError or TypeError. |
| Classifier.RowStatusCases | src/app.py:138-145 | With ten or more date columns a non-header row never fails. Each status holds exactly when its own condition holds: imminent, recent, long completed, or not yet. The conditions exclude each other. |
| Classifier.FirstReaching | src/app.py:148-163 | Finds the first value reaching the threshold: every earlier value is below it, and there is none exactly when all values are below it. |
| Classifier.Highlight | src/app.py:148-163 | Rows 0 and 1 have no highlight. Otherwise the highlighted cell is the first date column reaching the threshold, and there is none exactly when no value reaches it. |
| Classifier.CellColour | src/app.py:158-165 | A cell is orange exactly when it is the highlighted cell and is not the first cell of a stage row. |
| Classifier.PaintTable | src/app.py:117-165 | The painter succeeds exactly when every row has a status. Otherwise it fails with the error of the first row without one. On success it gives each row its status, group shading and highlight. |
| Classifier.ShortRowLookback | src/app.py:124-142 | With five or six date columns a completed stage row compares its threshold with a text cell and raises TypeError. |
| Classifier.ShadingAlternates | src/app.py:129-136 | An unnamed row keeps the shading of the row above. A named row flips it. |
| Classifier.OneOrangeCell | src/app.py:158-163 | The only orange cell of a row is the first date column reaching the threshold, and only for rows after row 1. |
| DateGaps.Sort | src/controllers.py:163 | Sorting gives a sorted permutation of the days. |
| DateGaps.WalkIsRange | src/controllers.py:163-173 | The loop of `has_all_day` succeeds exactly on the consecutive days from the start day up to, not including, the current day. |
| DateGaps.HasAllDaySpec | src/controllers.py:154-174 | `has_all_day` holds exactly when the stored days are the days of `[criteria, current)`, each once. |
| DateGaps.EmptyDays | src/controllers.py:176-194 | `get_empty_days` returns, strictly ascending, exactly the days of `[criteria, current)` absent from the series. It returns nothing when `has_all_day` holds. |
| DateGaps.AllDaysMeansNoGaps | src/controllers.py:154-194 | A complete series contains every day of `[criteria, current)`. |
| Validation.TextMissing | src/app.py:964 | A missing field raises KeyError. A string field passes exactly when it is non-empty. Other values make `len` raise TypeError. |
| Validation.NotInstance | src/app.py:967 | A missing field raises KeyError. A field passes exactly when it is present, not `None` and of the class. A present field never raises. |
| Validation.ReferBad | src/app.py:994 | A missing `refer` raises KeyError, and a present one never raises. `refer` passes exactly when it is `None` or a stage object. |
| Validation.TargetAddCheck | src/app.py:963-979 | Accepts exactly: non-empty name, a type object, non-empty state, float base and float threshold. It never raises when every field is present and the text fields are strings or `None`. |
| Validation.TargetCheck | src/app.py:981-988 | Accepts exactly a non-empty name and a type object. |
| Validation.TargetDataCheck | src/app.py:990-1006 | Accepts exactly: an organism object, a `None` or stage `refer`, non-empty state, float base and float threshold. |
| Validation.AddCheckImpliesTargetCheck | src/app.py:963-988 | A form `target_add_check` accepts also passes `target_check`. |
| Validation.NoRangeCheck | src/app.py:963-979 | Any float base and threshold, negative ones included, is accepted. |
| Validation.IntBaseRejected | src/app.py:973-975 | An integer base is not a float and is rejected. |
| Seeds.Resolve | src/app.py:74-88 | Resolution fails only with KeyError. On success there is one record per input, with the next id, the input's fields, and a prerequisite exactly when the input names one. |
| Seeds.ResolveKeys | src/app.py:74-88 | After the loop the dictionary holds exactly the local ids seen. |
| Seeds.ResolveValues | src/app.py:74-88 | Each local id maps to the record of its last occurrence. |
| Seeds.ResolveRefers | src/app.py:76-78 | A resolved prerequisite id was last seen at an earlier position of the same organism. |
| Seeds.ResolvePrefix | src/app.py:74-88 | Resolving a prefix yields a prefix of the records. |
| Seeds.ResolveFailsIff | src/app.py:76-78 | Resolution fails exactly when some prerequisite is not the id of an earlier stage. |
| Seeds.CreateTargets | src/app.py:61-88 | On success there is one organism per input, with its name and one stage per input stage. Failures are KeyError or NameError. |
| Seeds.CreateTargetsSucceedsIff | src/app.py:61-88 | Seeding succeeds exactly when every kind is known and every prerequisite refers back. |
| Seeds.DefaultTargetsResolve | src/app.py:31-64 | The seven seeded insects resolve whenever the insect kind exists. Otherwise seeding fails with NameError. |
| Scraping.NumRun | src/scraping.py:47 | Measures the longest prefix of digits and dots: the character after it is neither. |
| Scraping.MatchFloat | src/scraping.py:47-48 | A captured group is a sign-and-run prefix of the pattern's shape. |
| Scraping.MatchFloatIff | src/scraping.py:47-48 | The pattern matches exactly the strings of the form optional `-`, non-empty run of digits and dots, tail with neither. The capture is the sign and the whole run. |
| Scraping.MatchFloatDecomposes | src/scraping.py:47-48 | Every decomposition of the string yields the same capture. |
| Scraping.GetFloatValue | src/scraping.py:170-177 | `.group` raises AttributeError exactly when the pattern does not match. Otherwise the result is the captured prefix. |
| Scraping.ReadCell | src/scraping.py:137-143 | A row or cell index out of range raises IndexError. Otherwise the cell's text goes through `_get_float_value`. |
| Scraping.GetTemperature | src/scraping.py:101-145 | The site is fetched exactly when the cache is empty or holds another year or month. Afterwards the cache holds the requested month. The value read is row `3 + day`, cell 5 of the cached page. When the cache was faithful to the site, that is the site's current page for the month. |
| Scraping.GetAverageTemperature | src/scraping.py:57-98 | A missing date raises ValueError. Otherwise the site is fetched exactly when the cache is empty or holds another month. The value read is row `2 + day`, cell 1 of the cached page. |
| Scraping.StaleMonthPage | src/scraping.py:112-143 | A read served from a cached page raises IndexError for a day missing from that page, even when the site now has the row. |
| Scraping.SameMonthFetchesOnce | src/scraping.py:112-139 | A second read in the same year and month is served from the cache. |
| Scraping.AverageIgnoresYear | src/scraping.py:66-92 | After a read for one year, the same month of another year is not fetched and is read from the first year's page. |
| Scraping.LastKeyAt | src/scraping.py:199 | Finds the last position where the key is followed by a digit: no later position has one. |
| Scraping.ParamValue | src/scraping.py:199-214 | A captured parameter is a non-empty run of digits. |
| Scraping.ParamValueSpec | src/scraping.py:199-214 | `^.*KEY(\d+).*$` fails on a second line. Otherwise it fails exactly when the key followed by a digit does not occur. On success the capture is the whole run of digits after the last occurrence. |
| Scraping.PrefectureList | src/scraping.py:207-219 | One prefecture per area, in order, named by `alt`. Its code is the `prec_no` value or None. |
| Scraping.Candidate | src/scraping.py:255-274 | An area yields a block exactly when it has a `prec_no` and a `block_no` whose code is not `00`. The block carries both codes and the area's name. |
| Scraping.Dedup | src/scraping.py:274-276 | The list never holds a block twice and holds exactly the blocks some candidate yields. |
| Scraping.BlockList | src/scraping.py:255-278 | `get_block_list` holds no duplicates and exactly the blocks some area yields. |
| Scraping.DedupOrder | src/scraping.py:274-276 | Blocks appear in the order of their first occurrence. |
| Scraping.BlockListOrder | src/scraping.py:255-278 | The blocks of `get_block_list` appear in the order of the first area yielding each. |
| Settings.Put | src/config.py:95-96 | Setting an option changes that option of that section only. |
| Settings.Set | src/config.py:57 | Setting in a missing section raises NoSectionError. Otherwise the option holds the value and no section is added. |
| Settings.Get | src/config.py:86-87 | A missing section raises NoSectionError and a missing option raises NoOptionError. Otherwise the result is the stored text. |
| Settings.InitComponent | src/config.py:33-43 | A fresh parser has exactly the two sections: DEBUG `True`, prefecture `49`, block `47638`. |
| Settings.AddSections | src/config.py:51-53 | The first loop adds each missing listed section empty and keeps the others. |
| Settings.FillDefaults | src/config.py:55-57 | The second loop adds no section. |
| Settings.FillKeeps | src/config.py:55-57 | Filling never overwrites an option already set. |
| Settings.FillKeys | src/config.py:55-57 | Filling adds exactly the default options of each section. |
| Settings.FillValues | src/config.py:55-57 | Each missing default gets its default value. |
| Settings.Collect | src/config.py:45-57 | `collect` adds the two default sections and removes none. |
| Settings.WithSections | src/config.py:51-53 | After the first loop both default sections exist. The old ones are unchanged and the new ones are empty. |
| Settings.CollectKeeps | src/config.py:45-57 | `collect` never overwrites an option already set. |
| Settings.CollectKeys | src/config.py:45-57 | `collect` adds to a section exactly its missing default options. |
| Settings.CollectValues | src/config.py:55-57 | After `collect` every default option exists, and a missing one holds its default value. |
| Settings.CollectOthers | src/config.py:45-57 | Sections other than the two defaults are left exactly as they were. |
| Settings.DefaultsDistinct | src/config.py:22-26 | The defaults name `debug` under `eit`, `prefecture` and `block` under `scraping`, and nothing else. |
| Settings.CollectFixed | src/config.py:45-57 | A parser that already holds both sections with all default options is left unchanged. |
| Settings.CollectIdempotent | src/config.py:45-57 | A second `collect` changes nothing. |
| Settings.CollectInit | src/config.py:33-57 | `collect` leaves a fresh `initComponent` parser as it is. |
| Settings.DebugDefaultsDiffer | src/config.py:22-43 | A fresh parser says DEBUG `True`. An empty file completed by `collect` says `FALSE`. |
| Settings.Debug | src/config.py:98-102 | `debug` succeeds exactly when the option exists, and returns the stored DEBUG text. |
| Settings.GetLocation | src/config.py:81-89 | `get_location` succeeds exactly when both options exist. A missing section raises NoSectionError. On success it returns the stored prefecture and block texts. |
| Settings.SetLocation | src/config.py:91-96 | `set_location` fails exactly when the section is missing. It adds no section and leaves the other sections alone. Within `scraping` it stores the two given texts and keeps every other option. |
| Settings.SetThenGetLocation | src/config.py:81-96 | Setting the location and reading it back gives what was set. |
| Settings.CollectedLocation | src/config.py:45-96 | After `collect` the location can always be read and set. |

## Left out

- The wxPython GUI is not modelled: widgets, dialogs, label text, alignment and RGB values. Colours are named instead.
- `round(x, 1)` and `float(...)` are not modelled. Totals are exact reals, and the scraper stops at the captured text.
- pandas mechanics are replaced by a sequence of (key, row) pairs with `.loc` semantics. Column labels (`strftime('%m/%d')`) are not modelled.
- The database layer and the DB-backed controller methods are left out. This covers registering, updating, deleting and fetching, and the stored-id assignment. `Seeds` hands out ids from a given first id instead.
- Seeding's partial effects are not modelled: organisms inserted before a failing one stay in the database.
- Network and HTML work is left out: HTTP requests, BeautifulSoup navigation, the `td` selectors, `load_time` and the `sleep` throttle. A fetched page is a parameter (`Scraping.Site`), given as the rows of cell texts the selector picks. A failing fetch is not modelled.
- `.string` can be `None` for a cell without text. This is not modelled; cells are always strings.
- Python `\d` matches every Unicode decimal digit; the model accepts ASCII digits only.
- `init_temperature`, `update_temperatures` and `Config.load`/`save` are left out. They are network and file I/O.
- configparser details are left out:
  - case folding: option names are stored already lower-cased, so `DEBUG` is `debug`;
  - interpolation of `%` in values;
  - the `DEFAULT` section.
- A missing `alt` or `href` attribute raises KeyError in the source. Areas here always have both.
- The copies of `calc_table_data`, `CalcTargetData` and `Controller` in `src/app.py` (lines 211-452) are not modelled separately.
  - Its `calc_table_data` and `CalcTargetData` are identical to the controller versions.
  - Its `has_all_day` and `get_empty_days` differ from the controller versions only in docstrings.
  - Its `Controller` is the one the program starts (`src/app.py:1056`). It takes no settings, and its scraper uses the default location (`src/app.py:278-284`).
  - Its `get_target_types` stores into a misspelled attribute (`src/app.py:303-305`), so it never caches.
  - These differences all lie in parts this model leaves out: the database and the network.
- The validators' `print('error …')` messages (`src/app.py:965-1004`) are not modelled. Only the boolean results and the raised errors are.
- Prerequisite cycles are left out. A stage holds its prerequisite as a value (`Accumulator.Stage`), so a cycle cannot be built. The update dialog does let a user pick any other stage of the organism as prerequisite (`src/app.py:714-717`). On a cycle, the `CalcTargetData` constructor recurses without end (`src/controllers.py:21-22`) and the table build fails with RecursionError.
- Scraping.GetTemperature: the site is a pure function of year and month for each call. A page growing between calls is expressed by passing a different site to a later call, as `Scraping.StaleMonthPage` does. The clock, failed fetches and the page changing within one call are not modelled.
- Seeds.CreateTargets: states the organisms' names and stage counts. The stages' contents are stated per organism by `Seeds.Resolve`.
- Settings.FillDefaults: its contract states only that no section is added. The options it sets are stated by `Settings.FillKeeps`, `Settings.FillKeys` and `Settings.FillValues`.

=== FILE: accumulator.dfy ===
/** The stage accumulator (`CalcTargetData`): a running sum of effective
    temperature for one developmental stage, gated by the completion of its
    prerequisite stage. The mutable object with a nested `before` object
    becomes an immutable chain `Acc` listed from the stage back to its root
    stage, and `calc_accum` becomes the pure `Step`. */
module Accumulator {
  import opened Basics

  /** One developmental stage (`TargetData`): its threshold base temperature,
      the accumulated effective temperature it needs, and the prerequisite
      stage object itself (never an id), so a chain is always finite and a
      prerequisite cycle cannot be written down. */
  datatype Stage = Stage(id: int, state: string, base: real, accum: real, refer: Option<Stage>)

  /** The state of one `CalcTargetData` object. `myself` is true only for the
      accumulator of the stage being reported; `before` is the accumulator of
      the prerequisite stage. */
  datatype Acc = Acc(stage: Stage, myself: bool, finish: bool, current: real, before: Option<Acc>)

  /** Effective temperature of one day: the part of `t` above `base`. */
  function Effective(t: real, base: real): (d: real)
    ensures d >= 0.0 && d >= t - base
    ensures d == 0.0 || d == t - base
  {
    if t > base then t - base else 0.0
  }

  /** Sum of the effective temperatures of a series of days. */
  function EffectiveSum(ts: seq<real>, base: real): real
  {
    if |ts| == 0 then 0.0 else EffectiveSum(ts[..|ts| - 1], base) + Effective(ts[|ts| - 1], base)
  }

  /** The accumulators a chain holds below its head are all in non-self mode,
      and each one belongs to the prerequisite of the stage above it. */
  predicate WellFormed(a: Acc)
  {
    && (a.before.Some? <==> a.stage.refer.Some?)
    && (a.before.Some? ==>
          && a.before.value.stage == a.stage.refer.value
          && !a.before.value.myself
          && WellFormed(a.before.value))
  }

  /** Every accumulator of the chain is unfinished at 0.0, as each one the
      constructor builds is. */
  predicate Fresh(a: Acc)
  {
    !a.finish && a.current == 0.0 && (a.before.Some? ==> Fresh(a.before.value))
  }

  /** The constructor: a fresh accumulator, building one for the prerequisite
      (in non-self mode) when the stage has one. */
  function Init(s: Stage, myself: bool): (a: Acc)
    ensures a.stage == s && a.myself == myself
    ensures !a.finish && a.current == 0.0
    ensures Fresh(a)
    ensures WellFormed(a)
  {
    Acc(s, myself, false, 0.0, if s.refer.Some? then Some(Init(s.refer.value, false)) else None)
  }

  /** One call of `calc_accum(t)`; the returned total is the result's `current`. */
  function Step(a: Acc, t: real): (r: Acc)
    ensures r.stage == a.stage && r.myself == a.myself
    ensures r.before.Some? <==> a.before.Some?
    ensures r.before.Some? ==> r.before.value.stage == a.before.value.stage
    ensures r.before.Some? ==> r.before.value.myself == a.before.value.myself
    ensures WellFormed(a) ==> WellFormed(r)
    // the total never decreases, and a finished accumulator stays finished
    ensures r.current >= a.current
    ensures a.finish ==> r.finish
    // a finished prerequisite accumulator is frozen
    ensures !a.myself && a.finish ==> r == a
    // otherwise `finish` is set exactly when the new total reaches the threshold
    ensures (a.myself || !a.finish) ==> (r.finish <==> a.finish || r.current >= a.stage.accum)
    // while the prerequisite is unfinished the stage adds nothing
    ensures a.before.Some? && !a.before.value.finish ==> r.current == a.current
    // an accumulator that is not frozen and not gated gains the day's effective temperature
    ensures (a.myself || !a.finish) && (a.before.None? || a.before.value.finish) ==>
              r.current == a.current + Effective(t, a.stage.base)
    // the prerequisite advances by one call until it finishes, then stays put
    ensures a.before.Some? && (a.myself || !a.finish) ==>
              r.before == (if a.before.value.finish then a.before else Some(Step(a.before.value, t)))
  {
    if !a.myself && a.finish then a
    else
      var before: Option<Acc> :=
        if a.before.Some? && !a.before.value.finish then Some(Step(a.before.value, t)) else a.before;
      var current: real :=
        if a.before.Some? && !a.before.value.finish then a.current else a.current + Effective(t, a.stage.base);
      a.(before := before, current := current, finish := a.finish || current >= a.stage.accum)
  }

  /** The accumulator after being fed every day of `ts` in order. */
  function Run(a: Acc, ts: seq<real>): (r: Acc)
    ensures r.stage == a.stage && r.myself == a.myself
    ensures r.before.Some? <==> a.before.Some?
    ensures r.before.Some? ==> r.before.value.myself == a.before.value.myself
    ensures WellFormed(a) ==> WellFormed(r)
    ensures r.current >= a.current
    ensures a.finish ==> r.finish
  {
    if |ts| == 0 then a else Step(Run(a, ts[..|ts| - 1]), ts[|ts| - 1])
  }

  /** The day-by-day totals `calc_accum` returns over the series. */
  function Totals(a: Acc, ts: seq<real>): (vs: seq<real>)
    ensures |vs| == |ts|
    ensures forall k :: 0 < k <= |ts| ==> vs[k - 1] == Run(a, ts[..k]).current
  {
    if |ts| == 0 then []
    else
      var p := ts[..|ts| - 1];
      assert forall k :: 0 < k < |ts| ==> p[..k] == ts[..k];
      assert ts[..|ts|] == ts;
      Totals(a, p) + [Run(a, ts).current]
  }

  /** Gated effective sum: day `i` counts only when the prerequisite, run on
      its own over the days before `i`, was already finished. */
  function GatedSum(b: Acc, ts: seq<real>, base: real): real
  {
    if |ts| == 0 then 0.0
    else
      var p := ts[..|ts| - 1];
      GatedSum(b, p, base) + (if Run(b, p).finish then Effective(ts[|ts| - 1], base) else 0.0)
  }

  /** The reported totals never decrease from one day to the next. */
  lemma {:induction false} TotalsMonotone(a: Acc, ts: seq<real>, i: nat, j: nat)
    requires i <= j <= |ts|
    ensures Run(a, ts[..i]).current <= Run(a, ts[..j]).current
    decreases j - i
  {
    if i < j {
      TotalsMonotone(a, ts, i, j - 1);
      assert ts[..j][..j - 1] == ts[..j - 1];
      assert Run(a, ts[..j]) == Step(Run(a, ts[..j - 1]), ts[j - 1]);
    }
  }

  /** A stage with no prerequisite, in self mode, holds exactly the sum of the
      effective temperatures of every day fed to it. */
  lemma {:induction false} RootTotal(a: Acc, ts: seq<real>)
    requires a.myself && a.before.None?
    ensures Run(a, ts).current == a.current + EffectiveSum(ts, a.stage.base)
  {
    if |ts| > 0 {
      RootTotal(a, ts[..|ts| - 1]);
    }
  }

  /** A finished prerequisite accumulator returns its stored state on every
      later call. */
  lemma {:induction false} FrozenStays(a: Acc, ts: seq<real>)
    requires !a.myself && a.finish
    ensures Run(a, ts) == a
  {
    if |ts| > 0 {
      FrozenStays(a, ts[..|ts| - 1]);
    }
  }

  /** The self-mode accumulator keeps adding after it finishes: over days it is
      already finished for, a root stage still gains each day's effective
      temperature. */
  lemma SelfKeepsAdding(a: Acc, t: real)
    requires a.myself && a.finish && a.before.None?
    ensures Step(a, t).current == a.current + Effective(t, a.stage.base)
    ensures Step(a, t).finish
  {
  }

  /** A prerequisite accumulator (non-self mode) of a stage with no
      prerequisite of its own finishes exactly on the first day its running
      sum reaches the threshold, and until then holds exactly that running
      sum. */
  lemma {:induction false} PrerequisiteTotal(a: Acc, ts: seq<real>)
    requires !a.myself && a.before.None? && !a.finish
    ensures Run(a, ts).finish <==>
              exists k :: 0 < k <= |ts| && a.current + EffectiveSum(ts[..k], a.stage.base) >= a.stage.accum
    ensures !Run(a, ts).finish ==> Run(a, ts).current == a.current + EffectiveSum(ts, a.stage.base)
  {
    if |ts| > 0 {
      var n := |ts|;
      var p := ts[..n - 1];
      PrerequisiteTotal(a, p);
      assert forall k :: 0 < k < n ==> p[..k] == ts[..k];
      assert ts[..n] == ts;
      var q := Run(a, p);
      if q.finish {
        assert Run(a, ts) == q;
        var k :| 0 < k <= |p| && a.current + EffectiveSum(p[..k], a.stage.base) >= a.stage.accum;
        assert a.current + EffectiveSum(ts[..k], a.stage.base) >= a.stage.accum;
      } else {
        assert EffectiveSum(ts, a.stage.base) == EffectiveSum(p, a.stage.base) + Effective(ts[n - 1], a.stage.base);
        assert Run(a, ts).current == a.current + EffectiveSum(ts, a.stage.base);
        if Run(a, ts).finish {
          assert a.current + EffectiveSum(ts[..n], a.stage.base) >= a.stage.accum;
        }
      }
    }
  }

  /** A prerequisite accumulator (non-self mode) that is itself gated
      finishes exactly once its gated sum has reached the threshold on some
      day, and until then holds exactly that gated sum. */
  lemma {:induction false} MidTotal(a: Acc, ts: seq<real>)
    requires !a.myself && WellFormed(a) && a.before.Some? && !a.finish
    ensures !Run(a, ts).finish ==> Run(a, ts).current == a.current + GatedSum(a.before.value, ts, a.stage.base)
    ensures Run(a, ts).finish <==>
              exists k :: 0 < k <= |ts| && a.current + GatedSum(a.before.value, ts[..k], a.stage.base) >= a.stage.accum
  {
    if |ts| > 0 {
      var n := |ts|;
      var p := ts[..n - 1];
      var b := a.before.value;
      MidTotal(a, p);
      assert forall k :: 0 < k < n ==> p[..k] == ts[..k];
      assert ts[..n] == ts;
      var q := Run(a, p);
      if q.finish {
        assert Run(a, ts) == q;
        var k :| 0 < k <= |p| && a.current + GatedSum(b, p[..k], a.stage.base) >= a.stage.accum;
        assert a.current + GatedSum(b, ts[..k], a.stage.base) >= a.stage.accum;
      } else {
        MidRunsAlone(a, p);
        assert q.before == Some(Run(b, p));
        assert GatedSum(b, ts, a.stage.base) == GatedSum(b, p, a.stage.base)
          + (if Run(b, p).finish then Effective(ts[n - 1], a.stage.base) else 0.0);
        assert Run(a, ts).current == a.current + GatedSum(b, ts, a.stage.base);
        if Run(a, ts).finish {
          assert a.current + GatedSum(b, ts[..n], a.stage.base) >= a.stage.accum;
        }
      }
    }
  }

  /** Below the head of a chain: a non-self accumulator that is still
      unfinished after the days has fed every one of them to its own
      prerequisite, so that prerequisite is what it would be run alone. */
  lemma {:induction false} MidRunsAlone(a: Acc, ts: seq<real>)
    requires !a.myself && WellFormed(a) && a.before.Some? && !a.finish
    requires !Run(a, ts).finish
    ensures Run(a, ts).before == Some(Run(a.before.value, ts))
  {
    if |ts| > 0 {
      var p := ts[..|ts| - 1];
      var q := Run(a, p);
      assert !q.finish;
      MidRunsAlone(a, p);
      var b' := Run(a.before.value, p);
      if b'.finish {
        assert Step(b', ts[|ts| - 1]) == b';
      }
    }
  }

  /** Inside the chain of a self-mode accumulator, the prerequisite's state is
      exactly what the prerequisite would reach if it were fed the same days on
      its own: gating does not skip or repeat any day of the prerequisite. */
  lemma {:induction false} PrerequisiteRunsAlone(a: Acc, ts: seq<real>)
    requires a.myself && WellFormed(a) && a.before.Some?
    ensures Run(a, ts).before == Some(Run(a.before.value, ts))
  {
    if |ts| > 0 {
      var p := ts[..|ts| - 1];
      PrerequisiteRunsAlone(a, p);
      var b' := Run(a.before.value, p);
      if b'.finish {
        assert Step(b', ts[|ts| - 1]) == b';
      }
    }
  }

  /** A self-mode stage with a prerequisite gains day `i`'s effective
      temperature exactly when the prerequisite was finished before day `i`;
      in particular it gains nothing on the day the prerequisite finishes. */
  lemma DayGate(a: Acc, ts: seq<real>, i: nat)
    requires a.myself && WellFormed(a) && a.before.Some?
    requires i < |ts|
    ensures Run(a.before.value, ts[..i]).finish ==>
              Run(a, ts[..i + 1]).current == Run(a, ts[..i]).current + Effective(ts[i], a.stage.base)
    ensures !Run(a.before.value, ts[..i]).finish ==>
              Run(a, ts[..i + 1]).current == Run(a, ts[..i]).current
  {
    PrerequisiteRunsAlone(a, ts[..i]);
    assert ts[..i + 1][..i] == ts[..i];
  }

  /** The total of a self-mode stage with a prerequisite is the gated sum:
      only days after the prerequisite finished contribute. */
  lemma {:induction false} GatedTotal(a: Acc, ts: seq<real>)
    requires a.myself && WellFormed(a) && a.before.Some?
    ensures Run(a, ts).current == a.current + GatedSum(a.before.value, ts, a.stage.base)
  {
    if |ts| > 0 {
      var p := ts[..|ts| - 1];
      GatedTotal(a, p);
      PrerequisiteRunsAlone(a, p);
    }
  }

  /** A fresh self-mode accumulator for a stage with a prerequisite stays at 0
      on every day up to and including the day the prerequisite finishes. */
  lemma {:induction false} ZeroUntilPrerequisiteFinished(s: Stage, ts: seq<real>, n: nat)
    requires s.refer.Some? && n <= |ts|
    requires !Run(Init(s.refer.value, false), ts[..n]).finish
    ensures Run(Init(s, true), ts[..n + (if n < |ts| then 1 else 0)]).current == 0.0
  {
    var a := Init(s, true);
    var b := Init(s.refer.value, false);
    assert a.before == Some(b);
    ZeroUpTo(a, ts, n);
    if n < |ts| {
      DayGate(a, ts, n);
    }
  }

  /** Helper for the lemma above: nothing is added on days `0 .. n-1` when the
      prerequisite is still unfinished after day `n-1`. */
  lemma {:induction false} ZeroUpTo(a: Acc, ts: seq<real>, n: nat)
    requires a.myself && WellFormed(a) && a.before.Some?
    requires n <= |ts| && !Run(a.before.value, ts[..n]).finish
    ensures Run(a, ts[..n]).current == a.current
  {
    if n > 0 {
      var b := a.before.value;
      assert ts[..n][..n - 1] == ts[..n - 1];
      assert Run(b, ts[..n]) == Step(Run(b, ts[..n - 1]), ts[n - 1]);
      ZeroUpTo(a, ts, n - 1);
      DayGate(a, ts, n - 1);
    }
  }

  /** Worked example: base 9.7, threshold 20.0, days 5.0, 12.0, 20.0 give the
      totals 0.0, 2.3, 12.6 and the stage stays unfinished. */
  lemma ExampleRootStage()
    ensures Totals(Init(Stage(1, "egg", 9.7, 20.0, None), true), [5.0, 12.0, 20.0]) == [0.0, 2.3, 12.6]
    ensures !Run(Init(Stage(1, "egg", 9.7, 20.0, None), true), [5.0, 12.0, 20.0]).finish
  {
    var a := Init(Stage(1, "egg", 9.7, 20.0, None), true);
    var ts := [5.0, 12.0, 20.0];
    assert ts[..1][..0] == [];
    var r1 := Step(a, 5.0);
    assert Run(a, ts[..1]) == r1 && r1.current == 0.0;
    assert ts[..2][..1] == ts[..1];
    var r2 := Step(r1, 12.0);
    assert Run(a, ts[..2]) == r2 && r2.current == 2.3;
    assert ts[..3][..2] == ts[..2] && ts[..3] == ts;
    var r3 := Step(r2, 20.0);
    assert Run(a, ts) == r3 && r3.current == 12.6 && !r3.finish;
    var vs := Totals(a, ts);
    assert vs[0] == 0.0 && vs[1] == 2.3 && vs[2] == 12.6;
  }

  /** Worked example of the gate: the prerequisite (base 9.7, threshold 10.0)
      finishes on day 1, so the stage (base 8.0, threshold 5.0) adds nothing on
      day 1 and 12.0 on each later day. */
  lemma ExampleGatedStage()
    ensures
      var pre := Stage(1, "egg", 9.7, 10.0, None);
      Totals(Init(Stage(2, "larva", 8.0, 5.0, Some(pre)), true), [20.0, 20.0, 20.0]) == [0.0, 12.0, 24.0]
  {
    var pre := Stage(1, "egg", 9.7, 10.0, None);
    var a := Init(Stage(2, "larva", 8.0, 5.0, Some(pre)), true);
    var ts := [20.0, 20.0, 20.0];
    assert ts[..1][..0] == [];
    var r1 := Step(a, 20.0);
    assert r1.before.value.finish;
    assert Run(a, ts[..1]) == r1 && r1.current == 0.0;
    assert ts[..2][..1] == ts[..1];
    var r2 := Step(r1, 20.0);
    assert Run(a, ts[..2]) == r2 && r2.current == 12.0;
    assert ts[..3][..2] == ts[..2] && ts[..3] == ts;
    var r3 := Step(r2, 20.0);
    assert Run(a, ts) == r3 && r3.current == 24.0;
    var vs := Totals(a, ts);
    assert vs[0] == 0.0 && vs[1] == 12.0 && vs[2] == 24.0;
  }
}

=== FILE: classifier.dfy ===
/** The decision logic of the grid painter (`TemperatureTableGrid._output_table`):
    a status per row, the one "completion day" cell per row and the
    alternating shading of organism groups. The widget calls are left out;
    colours are named instead of given as RGB triples. */
module Classifier {
  import opened Basics
  import Table

  /** A cell as pandas yields it from `row[1]`: text or a number. */
  datatype Cell = Text(s: string) | Num(x: real)

  /** Row status, in the order the painter tests them. */
  datatype Status = Header | Imminent | Recent | LongCompleted | NotYet

  /** Background colours: `White` (255,255,255), `Shaded` (225,255,255),
      `HeaderTint` (200,255,255), `Yellow` (255,255,100), `Pink`
      (255,200,200), `Grey` (100,100,100) and `Orange`. */
  datatype Colour = White | Shaded | HeaderTint | Yellow | Pink | Grey | Orange

  /** What the painter decides for one row. */
  datatype RowPaint = RowPaint(status: Status, shaded: bool, highlight: Option<nat>)

  /** Width of the "imminent" band (`alert_temp`). */
  const AlertTemp: real := 10.0

  /** Number of cells before the first date column. */
  const DateStart: nat := 5

  /** The cells of a row, without the index column. */
  function Cells(r: Table.Row): (cs: seq<Cell>)
    ensures |cs| == DateStart + |r.values|
    ensures cs[0] == Text(r.name) && cs[1] == Text(r.state)
    ensures cs[2] == Num(r.base) && cs[3] == Num(r.accum) && cs[4] == Num(r.total)
    ensures forall k :: 0 <= k < |r.values| ==> cs[DateStart + k] == Num(r.values[k])
  {
    [Text(r.name), Text(r.state), Num(r.base), Num(r.accum), Num(r.total)]
      + seq(|r.values|, k requires 0 <= k < |r.values| => Num(r.values[k]))
  }

  /** `row[1][-10]`: the tenth cell from the end of the row. It is a date
      column only when the row has at least ten of them; with fewer it lands
      on one of the leading cells, and with fewer than five it does not exist. */
  function Lookback(r: Table.Row): (c: Result<Cell>)
    ensures c.Failure? <==> |r.values| < 5
    ensures c.Failure? ==> c.error == IndexError
    ensures |r.values| >= 10 ==> c == Success(Num(r.values[|r.values| - 10]))
    ensures 5 <= |r.values| < 10 ==> c == Success(Cells(r)[|r.values| - 5])
  {
    var cs := Cells(r);
    if |cs| < 10 then Failure(IndexError) else Success(cs[|cs| - 10])
  }

  /** Status of the row at position `i`; comparing the threshold with a text
      cell raises TypeError, as Python does. Every row, the header included,
      reads its lookback cell first. */
  function RowStatus(i: nat, r: Table.Row): (s: Result<Status>)
    ensures |r.values| < 5 ==> s == Failure(IndexError)
    ensures i == 0 && |r.values| >= 5 ==> s == Success(Header)
    ensures s.Failure? ==> s.error == IndexError || s.error == TypeError
  {
    match Lookback(r)
    case Failure(e) => Failure(e)
    case Success(before10) =>
      if i == 0 then Success(Header)
      else if r.accum > r.total && r.accum < r.total + AlertTemp then Success(Imminent)
      else if r.accum <= r.total then
        match before10
        case Text(_) => Failure(TypeError)
        case Num(x) => if r.accum > x then Success(Recent) else Success(LongCompleted)
      else Success(NotYet)
  }

  /** With ten or more date columns no row fails: every row after the first
      has the status whose own condition holds, the conditions exclude each
      other, and only row 0 is the header. */
  lemma RowStatusCases(i: nat, r: Table.Row)
    requires i > 0 && |r.values| >= 10
    ensures
      var s := RowStatus(i, r);
      var before10 := r.values[|r.values| - 10];
      && s.Success?
      && (s.value == Imminent <==> r.accum > r.total && r.accum < r.total + AlertTemp)
      && (s.value == Recent <==> r.accum <= r.total && r.accum > before10)
      && (s.value == LongCompleted <==> r.accum <= r.total && r.accum <= before10)
      && (s.value == NotYet <==> r.accum >= r.total + AlertTemp)
      && s.value != Header
  {
  }

  /** Index of the first value reaching `accum`, if any. */
  function FirstReaching(vs: seq<real>, accum: real): (k: Option<nat>)
    ensures k.Some? ==> k.value < |vs| && vs[k.value] >= accum
    ensures k.Some? ==> forall m :: 0 <= m < k.value ==> vs[m] < accum
    ensures k.None? <==> forall m :: 0 <= m < |vs| ==> vs[m] < accum
  {
    if |vs| == 0 then None
    else if vs[0] >= accum then Some(0)
    else
      match FirstReaching(vs[1..], accum)
      case None => None
      case Some(k) => Some(k + 1)
  }

  /** The highlighted "completion day" cell of row `i`: the first date column
      whose value reaches the threshold, for rows after the first stage row. */
  function Highlight(i: nat, r: Table.Row): (h: Option<nat>)
    ensures i <= 1 ==> h.None?
    ensures h.Some? ==> DateStart <= h.value < |Cells(r)| && Cells(r)[h.value] == Num(r.values[h.value - DateStart])
    ensures h.Some? ==> r.values[h.value - DateStart] >= r.accum
    ensures h.Some? ==> forall m :: 0 <= m < h.value - DateStart ==> r.values[m] < r.accum
    ensures i > 1 ==> (h.None? <==> forall m :: 0 <= m < |r.values| ==> r.values[m] < r.accum)
  {
    if i <= 1 then None
    else
      match FirstReaching(r.values, r.accum)
      case None => None
      case Some(k) => Some(DateStart + k)
  }

  /** Number of rows among the first `n` whose name is not empty. */
  function Groups(t: seq<(int, Table.Row)>, n: nat): nat
    requires n <= |t|
  {
    if n == 0 then 0 else Groups(t, n - 1) + (if |t[n - 1].1.name| != 0 then 1 else 0)
  }

  /** The painter's decision for row `i` of table `t`. */
  function PaintRow(t: seq<(int, Table.Row)>, i: nat): Result<RowPaint>
    requires i < |t|
  {
    match RowStatus(i, t[i].1)
    case Failure(e) => Failure(e)
    case Success(st) => Success(RowPaint(st, Groups(t, i + 1) % 2 == 1, Highlight(i, t[i].1)))
  }

  /** Background of the row colour for the status. */
  function RowColour(p: RowPaint): Colour
  {
    match p.status
    case Header => HeaderTint
    case Imminent => Yellow
    case Recent => Pink
    case LongCompleted => Grey
    case NotYet => if p.shaded then Shaded else White
  }

  /** Background of cell `j` of row `i`. */
  function CellColour(i: nat, j: nat, p: RowPaint): (c: Colour)
    ensures c == Orange <==> p.highlight == Some(j) && !(i > 1 && j < 1)
  {
    if i > 1 && j < 1 then (if p.shaded then Shaded else White)
    else if p.highlight == Some(j) then Orange
    else RowColour(p)
  }

  /** The painter's loop over the rows; the first row whose status cannot be
      decided stops it with that row's error. */
  method PaintTable(t: seq<(int, Table.Row)>) returns (res: Result<seq<RowPaint>>)
    ensures res.Success? <==> forall i :: 0 <= i < |t| ==> RowStatus(i, t[i].1).Success?
    ensures res.Failure? ==>
              exists i :: 0 <= i < |t| && RowStatus(i, t[i].1) == Failure(res.error) &&
                forall j :: 0 <= j < i ==> RowStatus(j, t[j].1).Success?
    ensures res.Success? ==> |res.value| == |t|
    ensures res.Success? ==> forall i :: 0 <= i < |t| ==> Success(res.value[i]) == PaintRow(t, i)
  {
    var paints: seq<RowPaint> := [];
    var targetCount: nat := 0;
    var i := 0;
    while i < |t|
      invariant 0 <= i <= |t|
      invariant |paints| == i
      invariant targetCount == Groups(t, i)
      invariant forall j :: 0 <= j < i ==> Success(paints[j]) == PaintRow(t, j)
    {
      var r := t[i].1;
      if |r.name| != 0 {
        targetCount := targetCount + 1;
      }
      assert targetCount == Groups(t, i + 1);
      var st := RowStatus(i, r);
      if st.Failure? {
        PaintedRowsSucceed(t, paints, i);
        return Failure(st.error);
      }
      var p := RowPaint(st.value, targetCount % 2 == 1, Highlight(i, r));
      assert Success(p) == PaintRow(t, i);
      paints := paints + [p];
      i := i + 1;
    }
    PaintedRowsSucceed(t, paints, |t|);
    return Success(paints);
  }

  /** Rows that were painted had a status. */
  lemma PaintedRowsSucceed(t: seq<(int, Table.Row)>, paints: seq<RowPaint>, n: nat)
    requires n <= |t| && |paints| == n
    requires forall j :: 0 <= j < n ==> Success(paints[j]) == PaintRow(t, j)
    ensures forall j :: 0 <= j < n ==> RowStatus(j, t[j].1).Success?
  {
    forall j | 0 <= j < n ensures RowStatus(j, t[j].1).Success? {
      assert PaintRow(t, j).Success?;
    }
  }

  /** With fewer than ten date columns the lookback is not a date column:
      a comparison against the name or state cell raises TypeError. */
  lemma ShortRowLookback(i: nat, r: Table.Row)
    requires i > 0 && 5 <= |r.values| <= 6 && r.accum <= r.total
    requires !(r.accum > r.total && r.accum < r.total + AlertTemp)
    ensures RowStatus(i, r) == Failure(TypeError)
  {
  }

  /** Stage rows (empty name) keep the shading of the row above; a named row
      starts a new group with the opposite shading. */
  lemma ShadingAlternates(t: seq<(int, Table.Row)>, i: nat)
    requires 0 < i < |t|
    ensures |t[i].1.name| == 0 ==> (Groups(t, i + 1) % 2 == 1 <==> Groups(t, i) % 2 == 1)
    ensures |t[i].1.name| != 0 ==> (Groups(t, i + 1) % 2 == 1 <==> Groups(t, i) % 2 == 0)
  {
  }

  /** The only orange cell of a row is its completion-day cell, which lies
      in a date column; rows 0 and 1 have none. */
  lemma OneOrangeCell(t: seq<(int, Table.Row)>, i: nat, j: nat)
    requires i < |t| && PaintRow(t, i).Success?
    ensures CellColour(i, j, PaintRow(t, i).value) == Orange <==>
              i > 1 && FirstReaching(t[i].1.values, t[i].1.accum) == Some(j - DateStart) && j >= DateStart
  {
  }
}

=== FILE: common.dfy ===
/** Shared value types: optional values and the Python exceptions the
    modelled code can raise, carried as values instead of being thrown. */
module Basics {

  datatype Option<+T> = None | Some(value: T)

  /** The exception classes the modelled operations can raise. */
  datatype Error =
    | IndexError      // a list or row position that does not exist
    | KeyError        // a dict lookup of a missing key
    | TypeError       // a comparison between a string and a number, or `len` of a non-sequence
    | AttributeError  // `.group` called on a failed regular-expression match
    | ValueError      // an argument the operation refuses outright
    | NameError       // a name the code uses but never defines
    | NoSectionError  // a configuration section that does not exist
    | NoOptionError   // a configuration option that does not exist

  datatype Result<+T> = Success(value: T) | Failure(error: Error)

  /** Sum of a sequence of reals, left to right as Python's `sum` adds them. */
  function Sum(xs: seq<real>): real
  {
    if |xs| == 0 then 0.0 else Sum(xs[..|xs| - 1]) + xs[|xs| - 1]
  }
}

=== FILE: config.dfy ===
/** The settings file (`Config`): sections of options, the defaults filled in
    by `collect`, the fresh settings of `initComponent`, and the location and
    debug accessors. A parser is a map from section name to a map from
    option name to text. configparser lower-cases option names on every
    access; here option names are written already lower-cased, so the
    source's `DEBUG` is `debug`. Section names are kept as given. */
module Settings {
  import opened Basics

  type Section = map<string, string>
  type Config = map<string, Section>

  /** A default option: its section, its name as written, its value. */
  datatype Default = Default(section: string, option: string, value: string)

  const Eit: string := "eit"
  const Scraping: string := "scraping"

  /** `default_sections`. */
  const DefaultSections: seq<string> := [Eit, Scraping]

  /** `default_values`, in the order the dictionary lists them. */
  const DefaultValues: seq<Default> := [
    Default(Eit, "debug", "FALSE"),
    Default(Scraping, "prefecture", "49"),
    Default(Scraping, "block", "47638")
  ]

  /** `has_option`: false, not an error, when the section is missing. */
  predicate HasOption(c: Config, section: string, option: string)
  {
    section in c && option in c[section]
  }

  /** `set` on a section known to exist. */
  function Put(c: Config, section: string, option: string, value: string): (r: Config)
    requires section in c
    ensures r.Keys == c.Keys
    ensures r[section] == c[section][option := value]
    ensures forall s :: s in c && s != section ==> r[s] == c[s]
  {
    c[section := c[section][option := value]]
  }

  /** `set`: NoSectionError when the section does not exist. */
  function Set(c: Config, section: string, option: string, value: string): (r: Result<Config>)
    ensures r.Failure? <==> section !in c
    ensures r.Failure? ==> r.error == NoSectionError
    ensures r.Success? ==> HasOption(r.value, section, option) && r.value[section][option] == value
    ensures r.Success? ==> r.value.Keys == c.Keys
  {
    if section !in c then Failure(NoSectionError) else Success(Put(c, section, option, value))
  }

  /** `get`: NoSectionError or NoOptionError when absent. */
  function Get(c: Config, section: string, option: string): (r: Result<string>)
    ensures section !in c <==> r == Failure(NoSectionError)
    ensures section in c && option !in c[section] <==> r == Failure(NoOptionError)
    ensures r.Success? <==> HasOption(c, section, option)
    ensures r.Success? ==> r.value == c[section][option]
  {
    if section !in c then Failure(NoSectionError)
    else if option !in c[section] then Failure(NoOptionError)
    else Success(c[section][option])
  }

  /** `initComponent`: a fresh parser with DEBUG set to `True` (not the
      `FALSE` that `collect` would fill in) and the default location. */
  function InitComponent(): (c: Config)
    ensures c.Keys == {Eit, Scraping}
    ensures Get(c, Eit, "debug") == Success("True")
    ensures Get(c, Scraping, "prefecture") == Success("49")
    ensures Get(c, Scraping, "block") == Success("47638")
    ensures c[Eit].Keys == {"debug"} && c[Scraping].Keys == {"prefecture", "block"}
  {
    var c0: Config := map[Eit := map[]];
    var c1 := Put(c0, Eit, "debug", "True");
    var c2 := c1[Scraping := map[]];
    var c3 := Put(c2, Scraping, "prefecture", "49");
    Put(c3, Scraping, "block", "47638")
  }

  /** The first loop of `collect`: add each listed section that is missing. */
  function AddSections(c: Config, sections: seq<string>): (r: Config)
    ensures r.Keys == c.Keys + set i | 0 <= i < |sections| :: sections[i]
    ensures forall s :: s in c ==> r[s] == c[s]
    ensures forall s :: s in r && s !in c ==> r[s] == map[]
  {
    if |sections| == 0 then c
    else
      var p := AddSections(c, sections[..|sections| - 1]);
      var s := sections[|sections| - 1];
      assert forall i :: 0 <= i < |sections| - 1 ==> sections[..|sections| - 1][i] == sections[i];
      if s in p then p else p[s := map[]]
  }

  /** The option keys the defaults `ds` name under `section`. */
  function KeysFor(ds: seq<Default>, section: string): set<string>
  {
    set i | 0 <= i < |ds| && ds[i].section == section :: ds[i].option
  }

  /** No two defaults name the same option of the same section. */
  predicate DistinctDefaults(ds: seq<Default>)
  {
    forall i, j :: 0 <= i < j < |ds| && ds[i].section == ds[j].section ==> ds[i].option != ds[j].option
  }

  lemma KeysForLast(ds: seq<Default>, section: string)
    requires |ds| > 0
    ensures KeysFor(ds, section) ==
              KeysFor(ds[..|ds| - 1], section) + (if ds[|ds| - 1].section == section then {ds[|ds| - 1].option} else {})
  {
    var p := ds[..|ds| - 1];
    assert forall i :: 0 <= i < |p| ==> p[i] == ds[i];
    forall k | k in KeysFor(ds, section)
      ensures k in KeysFor(p, section) || (ds[|ds| - 1].section == section && k == ds[|ds| - 1].option)
    {
      var i :| 0 <= i < |ds| && ds[i].section == section && ds[i].option == k;
      if i < |p| {
        assert p[i].section == section && p[i].option == k;
      }
    }
    forall k | k in KeysFor(p, section) ensures k in KeysFor(ds, section) {
      var i :| 0 <= i < |p| && p[i].section == section && p[i].option == k;
      assert ds[i] == p[i];
    }
    if ds[|ds| - 1].section == section {
      assert ds[|ds| - 1].option in KeysFor(ds, section);
    }
  }

  /** The second loop of `collect`: set each default whose option is
      missing. Every default's section exists by then. */
  function FillDefaults(c: Config, ds: seq<Default>): (r: Config)
    requires forall i :: 0 <= i < |ds| ==> ds[i].section in c
    ensures r.Keys == c.Keys
  {
    if |ds| == 0 then c
    else
      var p := FillDefaults(c, ds[..|ds| - 1]);
      var d := ds[|ds| - 1];
      if HasOption(p, d.section, d.option) then p else Put(p, d.section, d.option, d.value)
  }

  /** Filling defaults keeps every option already set. */
  lemma FillKeeps(c: Config, ds: seq<Default>)
    requires forall i :: 0 <= i < |ds| ==> ds[i].section in c
    ensures forall s, k :: s in c && k in c[s] ==> k in FillDefaults(c, ds)[s] && FillDefaults(c, ds)[s][k] == c[s][k]
  {
    forall s | s in c {
      FillKeepsAt(c, ds, s);
    }
  }

  lemma {:induction false} FillKeepsAt(c: Config, ds: seq<Default>, s: string)
    requires forall i :: 0 <= i < |ds| ==> ds[i].section in c
    requires s in c
    ensures forall k :: k in c[s] ==> k in FillDefaults(c, ds)[s] && FillDefaults(c, ds)[s][k] == c[s][k]
  {
    if |ds| > 0 {
      var q := ds[..|ds| - 1];
      assert forall i :: 0 <= i < |q| ==> q[i] == ds[i];
      FillKeepsAt(c, q, s);
    }
  }

  /** Filling defaults adds exactly the default options of each section. */
  lemma FillKeys(c: Config, ds: seq<Default>)
    requires forall i :: 0 <= i < |ds| ==> ds[i].section in c
    ensures forall s :: s in c ==> FillDefaults(c, ds)[s].Keys == c[s].Keys + KeysFor(ds, s)
  {
    forall s | s in c {
      FillKeysAt(c, ds, s);
    }
  }

  lemma {:induction false} FillKeysAt(c: Config, ds: seq<Default>, s: string)
    requires forall i :: 0 <= i < |ds| ==> ds[i].section in c
    requires s in c
    ensures FillDefaults(c, ds)[s].Keys == c[s].Keys + KeysFor(ds, s)
  {
    if |ds| > 0 {
      var q := ds[..|ds| - 1];
      assert forall i :: 0 <= i < |q| ==> q[i] == ds[i];
      FillKeysAt(c, q, s);
      KeysForLast(ds, s);
    }
  }

  /** Filling defaults gives each missing default its value. */
  lemma FillValues(c: Config, ds: seq<Default>)
    requires forall i :: 0 <= i < |ds| ==> ds[i].section in c
    requires DistinctDefaults(ds)
    ensures forall i :: 0 <= i < |ds| && !HasOption(c, ds[i].section, ds[i].option) ==>
              HasOption(FillDefaults(c, ds), ds[i].section, ds[i].option)
              && FillDefaults(c, ds)[ds[i].section][ds[i].option] == ds[i].value
  {
    forall i | 0 <= i < |ds| && !HasOption(c, ds[i].section, ds[i].option) {
      FillValueAt(c, ds, i);
    }
  }

  lemma {:induction false} FillValueAt(c: Config, ds: seq<Default>, i: int)
    requires forall i :: 0 <= i < |ds| ==> ds[i].section in c
    requires DistinctDefaults(ds)
    requires 0 <= i < |ds| && !HasOption(c, ds[i].section, ds[i].option)
    ensures HasOption(FillDefaults(c, ds), ds[i].section, ds[i].option)
    ensures FillDefaults(c, ds)[ds[i].section][ds[i].option] == ds[i].value
  {
    var q := ds[..|ds| - 1];
    var d := ds[|ds| - 1];
    assert forall j :: 0 <= j < |q| ==> q[j] == ds[j];
    var p := FillDefaults(c, q);
    if i < |q| {
      FillValueAt(c, q, i);
      assert q[i] == ds[i];
      assert ds[i].section != d.section || ds[i].option != d.option;
    } else {
      FillKeysAt(c, q, d.section);
      assert d.option !in KeysFor(q, d.section) by {
        forall j | 0 <= j < |q| && q[j].section == d.section ensures q[j].option != d.option {
          assert q[j] == ds[j];
        }
      }
      assert !HasOption(p, d.section, d.option);
    }
  }

  /** `collect`: both default sections exist afterwards and no section is
      removed. */
  function Collect(c: Config): (r: Config)
    ensures r.Keys == c.Keys + {Eit, Scraping}
  {
    var withSections := AddSections(c, DefaultSections);
    WithSections(c);
    FillDefaults(withSections, DefaultValues)
  }

  /** After the first loop of `collect` both default sections exist, the
      old ones unchanged and the new ones empty. */
  lemma WithSections(c: Config)
    ensures var w := AddSections(c, DefaultSections);
      && w.Keys == c.Keys + {Eit, Scraping}
      && (forall s :: s in c ==> w[s] == c[s])
      && (forall s :: s in w && s !in c ==> w[s] == map[])
  {
    assert (set i | 0 <= i < |DefaultSections| :: DefaultSections[i]) == {Eit, Scraping} by {
      assert DefaultSections[0] == Eit && DefaultSections[1] == Scraping;
    }
  }

  /** `collect` never overwrites an option already set. */
  lemma CollectKeeps(c: Config)
    ensures forall s, k :: s in c && k in c[s] ==> k in Collect(c)[s] && Collect(c)[s][k] == c[s][k]
  {
    WithSections(c);
    FillKeeps(AddSections(c, DefaultSections), DefaultValues);
  }

  /** `collect` adds to a section exactly its missing default options. */
  lemma CollectKeys(c: Config)
    ensures forall s :: s in Collect(c) ==>
              Collect(c)[s].Keys == (if s in c then c[s].Keys else {}) + KeysFor(DefaultValues, s)
  {
    WithSections(c);
    FillKeys(AddSections(c, DefaultSections), DefaultValues);
  }

  /** After `collect` every default option exists; a missing one holds the
      default value. */
  lemma CollectValues(c: Config)
    ensures forall i :: 0 <= i < |DefaultValues| ==> HasOption(Collect(c), DefaultValues[i].section, DefaultValues[i].option)
    ensures forall i :: 0 <= i < |DefaultValues| && !HasOption(c, DefaultValues[i].section, DefaultValues[i].option) ==>
              Get(Collect(c), DefaultValues[i].section, DefaultValues[i].option) == Success(DefaultValues[i].value)
  {
    forall i | 0 <= i < |DefaultValues| {
      CollectDefault(c, i);
    }
  }

  /** The `i`-th default after `collect`. */
  lemma CollectDefault(c: Config, i: nat)
    requires i < |DefaultValues|
    ensures HasOption(Collect(c), DefaultValues[i].section, DefaultValues[i].option)
    ensures !HasOption(c, DefaultValues[i].section, DefaultValues[i].option) ==>
              Collect(c)[DefaultValues[i].section][DefaultValues[i].option] == DefaultValues[i].value
  {
    WithSections(c);
    var w := AddSections(c, DefaultSections);
    var d := DefaultValues[i];
    assert d.section in w;
    FillKeys(w, DefaultValues);
    assert d.option in KeysFor(DefaultValues, d.section);
    if !HasOption(c, d.section, d.option) {
      DefaultsAreDistinct();
      FillValues(w, DefaultValues);
      if d.section in c {
        assert w[d.section] == c[d.section];
      } else {
        assert w[d.section] == map[];
      }
      assert !HasOption(w, d.section, d.option);
    }
  }

  /** Sections other than the two defaults are left exactly as they were. */
  lemma CollectOthers(c: Config)
    ensures forall s :: s in c && s != Eit && s != Scraping ==> Collect(c)[s] == c[s]
  {
    CollectKeeps(c);
    CollectKeys(c);
    DefaultsDistinct();
  }

  /** The default list names three different options. */
  lemma DefaultsAreDistinct()
    ensures DistinctDefaults(DefaultValues)
  {
  }

  /** The default options of each section. */
  lemma DefaultsDistinct()
    ensures KeysFor(DefaultValues, Eit) == {"debug"}
    ensures KeysFor(DefaultValues, Scraping) == {"prefecture", "block"}
    ensures forall s :: s != Eit && s != Scraping ==> KeysFor(DefaultValues, s) == {}
  {
    assert DefaultValues[0].section == Eit && DefaultValues[1].section == Scraping && DefaultValues[2].section == Scraping;
    assert KeysFor(DefaultValues, Eit) == {"debug"} by {
      assert DefaultValues[0].option in KeysFor(DefaultValues, Eit);
    }
    assert KeysFor(DefaultValues, Scraping) == {"prefecture", "block"} by {
      assert DefaultValues[1].option in KeysFor(DefaultValues, Scraping);
      assert DefaultValues[2].option in KeysFor(DefaultValues, Scraping);
    }
  }

  /** A parser holding both default sections with all their default
      options is left as it is by `collect`. */
  predicate Complete(c: Config)
  {
    Eit in c && Scraping in c
    && KeysFor(DefaultValues, Eit) <= c[Eit].Keys
    && KeysFor(DefaultValues, Scraping) <= c[Scraping].Keys
  }

  lemma CollectFixed(c: Config)
    requires Complete(c)
    ensures Collect(c) == c
  {
    forall s | s in c ensures Collect(c)[s] == c[s] {
      CollectFixedAt(c, s);
    }
  }

  lemma CollectFixedAt(c: Config, s: string)
    requires Complete(c) && s in c
    ensures s in Collect(c) && Collect(c)[s] == c[s]
  {
    WithSections(c);
    var w := AddSections(c, DefaultSections);
    assert w[s] == c[s];
    FillKeysAt(w, DefaultValues, s);
    FillKeepsAt(w, DefaultValues, s);
    assert KeysFor(DefaultValues, s) <= c[s].Keys by {
      if s != Eit && s != Scraping {
        DefaultsDistinct();
      }
    }
    var r := FillDefaults(w, DefaultValues);
    assert r == Collect(c);
    assert r[s].Keys == c[s].Keys;
    assert forall k :: k in r[s] ==> r[s][k] == c[s][k];
  }

  /** A second `collect` changes nothing. */
  lemma CollectIdempotent(c: Config)
    ensures Collect(Collect(c)) == Collect(c)
  {
    CollectKeys(c);
    CollectFixed(Collect(c));
  }

  /** `collect` leaves a fresh `initComponent` parser as it is; in
      particular DEBUG stays `True`. */
  lemma CollectInit()
    ensures Collect(InitComponent()) == InitComponent()
  {
    DefaultsDistinct();
    CollectFixed(InitComponent());
  }

  /** The two DEBUG defaults disagree: a fresh parser says `True`, an empty
      file completed by `collect` says `FALSE`. */
  lemma DebugDefaultsDiffer()
    ensures Debug(InitComponent()) == Success("True")
    ensures Debug(Collect(map[])) == Success("FALSE")
  {
    CollectValues(map[]);
    assert DefaultValues[0] == Default(Eit, "debug", "FALSE");
  }

  /** `debug`. */
  function Debug(c: Config): (r: Result<string>)
    ensures r.Success? <==> HasOption(c, Eit, "debug")
    ensures r.Success? ==> r.value == c[Eit]["debug"]
  {
    Get(c, Eit, "debug")
  }

  datatype Location = Location(prefecture: string, block: string)

  /** `get_location`: prefecture first, so a missing prefecture is the error
      reported even when block is missing too. */
  function GetLocation(c: Config): (r: Result<Location>)
    ensures r.Success? <==> HasOption(c, Scraping, "prefecture") && HasOption(c, Scraping, "block")
    ensures Scraping !in c ==> r == Failure(NoSectionError)
    ensures r.Success? ==> r.value == Location(c[Scraping]["prefecture"], c[Scraping]["block"])
  {
    match Get(c, Scraping, "prefecture")
    case Failure(e) => Failure(e)
    case Success(p) =>
      match Get(c, Scraping, "block")
      case Failure(e) => Failure(e)
      case Success(b) => Success(Location(p, b))
  }

  /** `set_location`: NoSectionError when the section is missing. */
  function SetLocation(c: Config, prefecture: string, block: string): (r: Result<Config>)
    ensures r.Failure? <==> Scraping !in c
    ensures r.Success? ==> r.value.Keys == c.Keys
    ensures r.Success? ==> forall s :: s in c && s != Scraping ==> r.value[s] == c[s]
    ensures r.Success? ==> r.value[Scraping] == c[Scraping]["prefecture" := prefecture]["block" := block]
  {
    match Set(c, Scraping, "prefecture", prefecture)
    case Failure(e) => Failure(e)
    case Success(c1) => Set(c1, Scraping, "block", block)
  }

  /** Setting the location and reading it back gives what was set. */
  lemma SetThenGetLocation(c: Config, prefecture: string, block: string)
    requires SetLocation(c, prefecture, block).Success?
    ensures GetLocation(SetLocation(c, prefecture, block).value) == Success(Location(prefecture, block))
  {
  }

  /** After `collect` the location can always be read and set. */
  lemma CollectedLocation(c: Config)
    ensures GetLocation(Collect(c)).Success?
    ensures SetLocation(Collect(c), "49", "47638").Success?
  {
    CollectValues(c);
    assert DefaultValues[1] == Default(Scraping, "prefecture", "49");
    assert DefaultValues[2] == Default(Scraping, "block", "47638");
  }
}

=== FILE: dates.dfy ===
/** The date-gap helpers of the controller (`has_all_day`,
    `get_empty_days`): whether the stored series covers every day from the
    reference day up to (excluding) the current day, and which days are
    missing. Dates are day numbers; adding `timedelta(days=1)` is `+ 1`. */
module DateGaps {

  predicate Sorted(s: seq<int>)
  {
    forall i, j :: 0 <= i < j < |s| ==> s[i] <= s[j]
  }

  /** The days `lo, lo+1, ..., hi-1`. */
  function Range(lo: int, hi: int): (r: seq<int>)
    ensures |r| == if lo <= hi then hi - lo else 0
    ensures forall i :: 0 <= i < |r| ==> r[i] == lo + i
    decreases hi - lo
  {
    if lo >= hi then [] else [lo] + Range(lo + 1, hi)
  }

  function Insert(x: int, s: seq<int>): (r: seq<int>)
    requires Sorted(s)
    ensures Sorted(r)
    ensures multiset(r) == multiset(s) + multiset{x}
    ensures |r| == |s| + 1
  {
    if |s| == 0 then [x]
    else if x <= s[0] then [x] + s
    else
      var rest := Insert(x, s[1..]);
      InsertHead(x, s, rest);
      [s[0]] + rest
  }

  lemma InsertHead(x: int, s: seq<int>, rest: seq<int>)
    requires Sorted(s) && |s| > 0 && s[0] < x
    requires multiset(rest) == multiset(s[1..]) + multiset{x}
    ensures forall k :: 0 <= k < |rest| ==> s[0] <= rest[k]
    ensures multiset(s) == multiset{s[0]} + multiset(s[1..])
  {
    assert s == [s[0]] + s[1..];
    forall k | 0 <= k < |rest| ensures s[0] <= rest[k] {
      assert rest[k] in multiset(rest);
      if rest[k] != x {
        assert rest[k] in multiset(s[1..]);
        var m :| 0 <= m < |s[1..]| && s[1..][m] == rest[k];
        assert s[m + 1] == rest[k];
      }
    }
  }

  /** Python's `sorted` on a list of days. */
  function Sort(s: seq<int>): (r: seq<int>)
    ensures Sorted(r)
    ensures multiset(r) == multiset(s)
  {
    if |s| == 0 then []
    else
      assert s == s[..|s| - 1] + [s[|s| - 1]];
      Insert(s[|s| - 1], Sort(s[..|s| - 1]))
  }

  /** The loop of `has_all_day` over the sorted days, starting at `search`. */
  function Walk(days: seq<int>, search: int, current: int): bool
  {
    if |days| == 0 then search == current
    else if days[0] != search then false
    else Walk(days[1..], search + 1, current)
  }

  /** `has_all_day`. */
  function HasAllDay(dates: seq<int>, criteria: int, current: int): bool
  {
    Walk(Sort(dates), criteria, current)
  }

  /** The walk succeeds exactly on the consecutive run ending just before
      `current`. */
  lemma {:induction false} WalkIsRange(days: seq<int>, search: int, current: int)
    ensures Walk(days, search, current) <==> search <= current && days == Range(search, current)
  {
    if |days| > 0 && days[0] == search {
      WalkIsRange(days[1..], search + 1, current);
      if search < current {
        assert Range(search, current) == [search] + Range(search + 1, current);
        assert days == [days[0]] + days[1..];
      }
    }
  }

  /** Two sorted sequences with the same elements are the same sequence. */
  lemma {:induction false} SortedUnique(a: seq<int>, b: seq<int>)
    requires Sorted(a) && Sorted(b) && multiset(a) == multiset(b)
    ensures a == b
  {
    if |a| > 0 {
      SameHead(a, b);
      SortedUnique(a[1..], b[1..]);
      assert a == [a[0]] + a[1..] && b == [b[0]] + b[1..];
    } else {
      assert |b| == |multiset(b)| == 0;
    }
  }

  /** Sorted sequences with the same elements start alike and continue with
      the same elements. */
  lemma SameHead(a: seq<int>, b: seq<int>)
    requires Sorted(a) && Sorted(b) && multiset(a) == multiset(b) && |a| > 0
    ensures |b| > 0 && a[0] == b[0]
    ensures Sorted(a[1..]) && Sorted(b[1..]) && multiset(a[1..]) == multiset(b[1..])
  {
    assert |b| == |multiset(b)| == |multiset(a)| == |a|;
    assert a[0] in multiset(b) && b[0] in multiset(a);
    var i :| 0 <= i < |b| && b[i] == a[0];
    var j :| 0 <= j < |a| && a[j] == b[0];
    assert b[0] <= b[i] && a[0] <= a[j];
    TailMultiset(a);
    TailMultiset(b);
  }

  lemma TailMultiset(a: seq<int>)
    requires |a| > 0
    ensures multiset(a[1..]) == multiset(a) - multiset{a[0]}
  {
    assert a == [a[0]] + a[1..];
  }

  lemma RangeSorted(lo: int, hi: int)
    ensures Sorted(Range(lo, hi))
  {
  }

  /** `has_all_day` holds exactly when the stored days are, counted with
      repetition, the days from `criteria` up to but excluding `current`. */
  lemma HasAllDaySpec(dates: seq<int>, criteria: int, current: int)
    ensures HasAllDay(dates, criteria, current) <==>
              criteria <= current && multiset(dates) == multiset(Range(criteria, current))
  {
    WalkIsRange(Sort(dates), criteria, current);
    if criteria <= current && multiset(dates) == multiset(Range(criteria, current)) {
      RangeSorted(criteria, current);
      SortedUnique(Sort(dates), Range(criteria, current));
    }
  }

  /** Every day of `[criteria, current)` is among `dates`. */
  predicate Covers(dates: seq<int>, criteria: int, current: int)
  {
    forall d :: criteria <= d < current ==> d in dates
  }

  /** `empty` lists, ascending and below `upto`, exactly the days of
      `[criteria, current)` before `upto` that `dates` lacks. */
  ghost predicate Gaps(empty: seq<int>, dates: seq<int>, criteria: int, upto: int, current: int)
  {
    && (forall i, j :: 0 <= i < j < |empty| ==> empty[i] < empty[j])
    && (forall i :: 0 <= i < |empty| ==> empty[i] < upto)
    && (forall d :: d in empty <==> criteria <= d < upto && d < current && d !in dates)
  }

  /** `get_empty_days`: the days of `[criteria, current)` absent from the
      stored series, in ascending order. */
  method EmptyDays(dates: seq<int>, criteria: int, current: int) returns (empty: seq<int>)
    ensures forall i, j :: 0 <= i < j < |empty| ==> empty[i] < empty[j]
    ensures forall d :: d in empty <==> criteria <= d < current && d !in dates
    ensures HasAllDay(dates, criteria, current) ==> empty == []
  {
    if HasAllDay(dates, criteria, current) {
      AllDaysMeansNoGaps(dates, criteria, current);
    }
    var days := Sort(dates);
    SortKeepsDays(dates);
    empty := [];
    var search := criteria;
    while search < current
      invariant criteria <= search || (search == criteria && current <= criteria)
      invariant Gaps(empty, dates, criteria, search, current)
      invariant Covers(dates, criteria, current) ==> empty == []
      decreases current - search
    {
      GapsStep(empty, dates, criteria, search, current);
      if search !in days {
        empty := empty + [search];
      }
      search := search + 1;
    }
  }

  /** Sorting keeps the set of days. */
  lemma SortKeepsDays(dates: seq<int>)
    ensures forall d :: d in Sort(dates) <==> d in dates
  {
    forall d ensures d in Sort(dates) <==> d in dates {
      assert d in Sort(dates) <==> d in multiset(Sort(dates));
      assert d in dates <==> d in multiset(dates);
    }
  }

  /** One turn of the loop of `get_empty_days` keeps `Gaps`, and appends
      nothing when every day is stored. */
  lemma GapsStep(empty: seq<int>, dates: seq<int>, criteria: int, search: int, current: int)
    requires criteria <= search < current
    requires Gaps(empty, dates, criteria, search, current)
    ensures search !in dates ==> Gaps(empty + [search], dates, criteria, search + 1, current)
    ensures search in dates ==> Gaps(empty, dates, criteria, search + 1, current)
    ensures Covers(dates, criteria, current) ==> search in dates
  {
  }

  /** A complete series has no missing day. */
  lemma AllDaysMeansNoGaps(dates: seq<int>, criteria: int, current: int)
    requires HasAllDay(dates, criteria, current)
    ensures Covers(dates, criteria, current)
  {
    HasAllDaySpec(dates, criteria, current);
    forall d | criteria <= d < current ensures d in dates {
      var r := Range(criteria, current);
      assert r[d - criteria] == d;
      assert d in multiset(r);
    }
  }
}

=== FILE: keyed.dfy ===
/** Insertion-ordered keyed sequences: the behaviour shared by a Python
    `dict` built key by key and by pandas' `frame.loc[key] = row`. A new key
    is appended at the end; storing under a key already present replaces the
    value but keeps the key's first position. Keys are integers (day numbers
    and row ids). */
module Keyed {

  predicate HasKey<V>(s: seq<(int, V)>, k: int)
  {
    exists i :: 0 <= i < |s| && s[i].0 == k
  }

  predicate DistinctKeys<V>(s: seq<(int, V)>)
  {
    forall i, j :: 0 <= i < j < |s| ==> s[i].0 != s[j].0
  }

  /** Position of the first pair with key `k`. */
  function FirstIndex<V>(ps: seq<(int, V)>, k: int): (i: nat)
    requires HasKey(ps, k)
    ensures i < |ps| && ps[i].0 == k
    ensures forall j :: 0 <= j < i ==> ps[j].0 != k
  {
    var p := ps[..|ps| - 1];
    if HasKey(p, k) then FirstIndex(p, k)
    else
      assert forall j :: 0 <= j < |p| ==> ps[j] == p[j];
      |ps| - 1
  }

  /** Store `v` under `k`. */
  function Upsert<V>(s: seq<(int, V)>, k: int, v: V): (r: seq<(int, V)>)
    ensures HasKey(s, k) ==> |r| == |s|
    ensures !HasKey(s, k) ==> r == s + [(k, v)]
    ensures forall i :: 0 <= i < |s| && s[i].0 != k ==> r[i] == s[i]
    ensures forall i :: 0 <= i < |s| ==> r[i].0 == s[i].0
    ensures HasKey(r, k)
    ensures DistinctKeys(s) ==> DistinctKeys(r)
    ensures DistinctKeys(s) ==> forall i :: 0 <= i < |r| && r[i].0 == k ==> r[i].1 == v
  {
    if HasKey(s, k) then s[FirstIndex(s, k) := (k, v)]
    else
      var r := s + [(k, v)];
      assert r[|s|].0 == k;
      r
  }

  /** Value of the last pair with key `k`. */
  function LastValue<V>(ps: seq<(int, V)>, k: int): (v: V)
    requires HasKey(ps, k)
    ensures exists i :: 0 <= i < |ps| && ps[i] == (k, v) &&
              forall j :: i < j < |ps| ==> ps[j].0 != k
  {
    if ps[|ps| - 1].0 == k then ps[|ps| - 1].1
    else
      var p := ps[..|ps| - 1];
      assert HasKey(p, k) by {
        var i :| 0 <= i < |ps| && ps[i].0 == k;
        assert p[i] == ps[i];
      }
      var v := LastValue(p, k);
      assert forall i :: 0 <= i < |p| ==> ps[i] == p[i];
      v
  }

  /** The pairs stored one after another, as `{key: value for ...}` does. */
  function FromPairs<V>(ps: seq<(int, V)>): seq<(int, V)>
  {
    if |ps| == 0 then [] else Upsert(FromPairs(ps[..|ps| - 1]), ps[|ps| - 1].0, ps[|ps| - 1].1)
  }

  lemma HasKeyLast<V>(ps: seq<(int, V)>, k: int)
    requires |ps| > 0
    ensures HasKey(ps, k) <==> HasKey(ps[..|ps| - 1], k) || ps[|ps| - 1].0 == k
  {
    var p := ps[..|ps| - 1];
    if HasKey(ps, k) && ps[|ps| - 1].0 != k {
      var i :| 0 <= i < |ps| && ps[i].0 == k;
      assert p[i] == ps[i];
    }
    if HasKey(p, k) {
      var i :| 0 <= i < |p| && p[i].0 == k;
      assert ps[i] == p[i];
    }
    if ps[|ps| - 1].0 == k {
      assert ps[|ps| - 1].0 == k;
    }
  }

  /** Storing pairs one by one yields each key exactly once, and exactly the
      keys given. */
  lemma {:induction false} FromPairsKeys<V>(ps: seq<(int, V)>)
    ensures DistinctKeys(FromPairs(ps))
    ensures forall k :: HasKey(FromPairs(ps), k) <==> HasKey(ps, k)
  {
    if |ps| > 0 {
      var p := ps[..|ps| - 1];
      var k := ps[|ps| - 1].0;
      FromPairsKeys(p);
      var q := FromPairs(p);
      var r := FromPairs(ps);
      forall k' ensures HasKey(r, k') <==> HasKey(ps, k') {
        HasKeyLast(ps, k');
        if HasKey(r, k') {
          var i :| 0 <= i < |r| && r[i].0 == k';
          if i < |q| { assert q[i].0 == k'; } else { assert k' == k; }
        }
        if HasKey(q, k') {
          var i :| 0 <= i < |q| && q[i].0 == k';
          assert r[i].0 == k';
        }
        if k' == k && HasKey(q, k) {
          var i :| 0 <= i < |q| && q[i].0 == k;
          assert r[i].0 == k;
        } else if k' == k {
          assert r[|r| - 1].0 == k;
        }
      }
    }
  }

  /** Each stored key holds the last value given for it. */
  lemma {:induction false} FromPairsValues<V>(ps: seq<(int, V)>)
    ensures forall i :: 0 <= i < |FromPairs(ps)| ==>
              HasKey(ps, FromPairs(ps)[i].0) && FromPairs(ps)[i].1 == LastValue(ps, FromPairs(ps)[i].0)
  {
    if |ps| > 0 {
      var p := ps[..|ps| - 1];
      var k := ps[|ps| - 1].0;
      FromPairsValues(p);
      FromPairsKeys(ps);
      var q := FromPairs(p);
      var r := FromPairs(ps);
      forall i | 0 <= i < |r|
        ensures HasKey(ps, r[i].0) && r[i].1 == LastValue(ps, r[i].0)
      {
        assert HasKey(r, r[i].0);
        if r[i].0 != k {
          assert i < |q| && r[i] == q[i];
          HasKeyLast(ps, r[i].0);
        }
      }
    }
  }

  /** Stored keys keep the order in which each key first occurred. */
  lemma {:induction false} FromPairsOrder<V>(ps: seq<(int, V)>)
    ensures forall i, j :: 0 <= i < j < |FromPairs(ps)| ==>
              HasKey(ps, FromPairs(ps)[i].0) && HasKey(ps, FromPairs(ps)[j].0) &&
              FirstIndex(ps, FromPairs(ps)[i].0) < FirstIndex(ps, FromPairs(ps)[j].0)
  {
    if |ps| > 0 {
      var p := ps[..|ps| - 1];
      var k := ps[|ps| - 1].0;
      FromPairsOrder(p);
      FromPairsKeys(p);
      FromPairsKeys(ps);
      var q := FromPairs(p);
      var r := FromPairs(ps);
      forall i, j | 0 <= i < j < |r|
        ensures HasKey(ps, r[i].0) && HasKey(ps, r[j].0) && FirstIndex(ps, r[i].0) < FirstIndex(ps, r[j].0)
      {
        assert HasKey(r, r[i].0) && HasKey(r, r[j].0);
        assert i < |q| && r[i].0 == q[i].0;
        assert HasKey(q, q[i].0);
        assert FirstIndex(ps, r[i].0) == FirstIndex(p, r[i].0);
        if j < |q| {
          assert r[j].0 == q[j].0;
          assert HasKey(q, q[j].0);
          assert FirstIndex(ps, r[j].0) == FirstIndex(p, r[j].0);
        } else {
          assert r[j].0 == k && !HasKey(p, k);
        }
      }
    } else {
      assert FromPairs(ps) == [];
    }
  }

  /** Pairs whose keys are already distinct are stored unchanged, in order. */
  lemma {:induction false} FromPairsDistinct<V>(ps: seq<(int, V)>)
    requires DistinctKeys(ps)
    ensures FromPairs(ps) == ps
  {
    if |ps| > 0 {
      var p := ps[..|ps| - 1];
      FromPairsDistinct(p);
      assert !HasKey(p, ps[|ps| - 1].0) by {
        forall i | 0 <= i < |p| ensures p[i].0 != ps[|ps| - 1].0 {
          assert p[i] == ps[i];
        }
      }
      assert p + [ps[|ps| - 1]] == ps;
    }
  }

  /** The first pair's key stays in the first position. */
  lemma {:induction false} FromPairsFirst<V>(ps: seq<(int, V)>)
    requires |ps| > 0
    ensures |FromPairs(ps)| > 0 && FromPairs(ps)[0].0 == ps[0].0
  {
    if |ps| > 1 {
      var p := ps[..|ps| - 1];
      FromPairsFirst(p);
      assert p[0] == ps[0];
    }
  }

  /** The value at the last position holding key `k` is the last value. */
  lemma {:induction false} LastValueAt<V>(ps: seq<(int, V)>, k: int, i: nat)
    requires i < |ps| && ps[i].0 == k
    requires forall j :: i < j < |ps| ==> ps[j].0 != k
    ensures HasKey(ps, k) && LastValue(ps, k) == ps[i].1
  {
    if i < |ps| - 1 {
      var p := ps[..|ps| - 1];
      assert p[i] == ps[i];
      LastValueAt(p, k, i);
    }
  }
}

=== FILE: scraping.dfy ===
/** The string logic of the weather-site scraper (`ScrapeTemp`): the
    recogniser of a numeric prefix behind `_get_float_value`, the month
    caches of `get_temperature` and `get_average_temperature` with the row
    and column each reads, and the parameter extraction, filtering and
    de-duplication of `get_prefecture_list` and `get_block_list`. HTTP,
    HTML navigation and the pause between requests are left out: a fetched
    page is given as its rows, each row as the texts of the cells the
    selector picks. Digits are the ASCII digits. */
module Scraping {
  import opened Basics

  predicate IsDigit(c: char) { '0' <= c <= '9' }

  /** The class `[\d.]`. */
  predicate IsNumChar(c: char) { IsDigit(c) || c == '.' }

  predicate AllNum(s: string) { forall k :: 0 <= k < |s| ==> IsNumChar(s[k]) }

  predicate NoNum(s: string) { forall k :: 0 <= k < |s| ==> !IsNumChar(s[k]) }

  // ---------------------------------------------------------------------
  // `_get_float_value`: `^(-{0,1}[\d.]+)[^.\d]*$`
  // ---------------------------------------------------------------------

  /** Length of the longest prefix of `s` made of digits and dots. */
  function NumRun(s: string): (n: nat)
    ensures n <= |s|
    ensures AllNum(s[..n])
    ensures n < |s| ==> !IsNumChar(s[n])
  {
    if |s| == 0 || !IsNumChar(s[0]) then 0
    else
      var m := NumRun(s[1..]);
      assert s[..1 + m] == [s[0]] + s[1..][..m];
      1 + m
  }

  /** The ways `s` matches the pattern: an optional minus sign `s[..i]`, a
      non-empty run of digits and dots `s[i..j]`, and a tail `s[j..]` holding
      neither. The captured group is `s[..j]`. */
  predicate Decomposes(s: string, i: int, j: int)
  {
    0 <= i <= 1 && i < j <= |s| && (i == 1 ==> s[0] == '-') && AllNum(s[i..j]) && NoNum(s[j..])
  }

  /** The captured group of the match, or None when the pattern does not
      match. Greedy matching takes the sign when there is one and the longest
      run; backtracking cannot help, since a shorter run leaves a digit or dot
      at the head of the tail. */
  function MatchFloat(s: string): (g: Option<string>)
    ensures g.Some? ==> exists i, j :: Decomposes(s, i, j) && g.value == s[..j]
  {
    var i := if |s| > 0 && s[0] == '-' then 1 else 0;
    var n := NumRun(s[i..]);
    if n > 0 && NoNum(s[i + n..]) then
      assert s[i..i + n] == s[i..][..n];
      assert s[i + n..] == s[i..][n..];
      assert Decomposes(s, i, i + n);
      Some(s[..i + n])
    else None
  }

  /** A run followed by a character outside the class is exactly what
      `NumRun` measures. */
  lemma {:induction false} NumRunExact(t: string, m: nat)
    requires m <= |t| && AllNum(t[..m]) && (m < |t| ==> !IsNumChar(t[m]))
    ensures NumRun(t) == m
  {
    if m > 0 {
      assert IsNumChar(t[..m][0]);
      assert t[1..][..m - 1] == t[..m][1..];
      NumRunExact(t[1..], m - 1);
    }
  }

  /** The recogniser succeeds exactly on strings of the pattern's shape, and
      then captures the sign and the whole run. */
  lemma MatchFloatIff(s: string)
    ensures MatchFloat(s).Some? <==> exists i, j :: Decomposes(s, i, j)
    ensures forall i, j :: Decomposes(s, i, j) ==> MatchFloat(s) == Some(s[..j])
  {
    forall i, j | Decomposes(s, i, j) ensures MatchFloat(s) == Some(s[..j]) {
      MatchFloatDecomposes(s, i, j);
    }
  }

  lemma MatchFloatDecomposes(s: string, i: int, j: int)
    requires Decomposes(s, i, j)
    ensures MatchFloat(s) == Some(s[..j])
  {
    if i == 0 {
      assert IsNumChar(s[i..j][0]);
    }
    var t := s[i..];
    assert t[..j - i] == s[i..j];
    assert s[j..] == t[j - i..];
    if j < |s| {
      assert s[j..][0] == t[j - i];
    }
    NumRunExact(t, j - i);
  }

  /** `_get_float_value` up to the conversion: the captured text, or
      AttributeError from `.group` when the match failed. */
  function GetFloatValue(s: string): (r: Result<string>)
    ensures r.Failure? <==> forall i, j :: !Decomposes(s, i, j)
    ensures r.Failure? ==> r.error == AttributeError
    ensures forall i, j :: Decomposes(s, i, j) ==> r == Success(s[..j])
  {
    MatchFloatIff(s);
    match MatchFloat(s)
    case None => Failure(AttributeError)
    case Some(g) => Success(g)
  }

  // ---------------------------------------------------------------------
  // Month caches of `get_temperature` and `get_average_temperature`
  // ---------------------------------------------------------------------

  datatype Date = Date(year: int, month: int, day: nat)

  /** The rows of a fetched month table. */
  type Rows = seq<seq<string>>

  /** The rows a fetch returns for a year and month: the site, as a parameter. */
  type Site = (int, int) -> Rows

  datatype MonthCache = MonthCache(year: int, month: int, rows: Rows)

  datatype AverageCache = AverageCache(month: int, rows: Rows)

  datatype Scraper = Scraper(cache: Option<MonthCache>, averageCache: Option<AverageCache>)

  /** `data_start_row`, `temp_idx`, `average_data_start_row`, `average_temp_idx`. */
  const DataStartRow: nat := 3
  const TempIdx: nat := 5
  const AverageDataStartRow: nat := 2
  const AverageTempIdx: nat := 1

  /** `rows[r]`, then its `c`-th selected cell, then `_get_float_value`. */
  function ReadCell(rows: Rows, r: nat, c: nat): (v: Result<string>)
    ensures r >= |rows| || c >= |rows[r]| <==> v == Failure(IndexError)
    ensures r < |rows| && c < |rows[r]| ==> v == GetFloatValue(rows[r][c])
  {
    if r >= |rows| || c >= |rows[r]| then Failure(IndexError) else GetFloatValue(rows[r][c])
  }

  /** The new scraper state, whether the site was fetched, and the text read. */
  datatype Outcome = Outcome(state: Scraper, fetched: bool, value: Result<string>)

  /** The monthly cache holds what the site returns for its own month. */
  predicate CacheFaithful(sc: Scraper, site: Site)
  {
    sc.cache.Some? ==> sc.cache.value.rows == site(sc.cache.value.year, sc.cache.value.month)
  }

  /** `get_temperature(date)`; an absent date means yesterday, which the
      caller supplies in place of the clock. The site is fetched only when
      the cache is empty or holds another year or month; the cache is stored
      before the row is read, so it is kept even when the read fails. */
  function GetTemperature(sc: Scraper, date: Option<Date>, yesterday: Date, site: Site): (o: Outcome)
    ensures var d := if date.Some? then date.value else yesterday;
      && (o.fetched <==> sc.cache.None? || sc.cache.value.year != d.year || sc.cache.value.month != d.month)
      && (!o.fetched ==> o.state == sc)
      && o.state.cache.Some? && o.state.cache.value.year == d.year && o.state.cache.value.month == d.month
      && o.state.averageCache == sc.averageCache
      && o.value == ReadCell(o.state.cache.value.rows, DataStartRow + d.day, TempIdx)
      && (CacheFaithful(sc, site) ==>
            CacheFaithful(o.state, site) && o.value == ReadCell(site(d.year, d.month), DataStartRow + d.day, TempIdx))
  {
    var d := if date.Some? then date.value else yesterday;
    var hit := sc.cache.Some? && sc.cache.value.year == d.year && sc.cache.value.month == d.month;
    var state := if hit then sc else sc.(cache := Some(MonthCache(d.year, d.month, site(d.year, d.month))));
    Outcome(state, !hit, ReadCell(state.cache.value.rows, DataStartRow + d.day, TempIdx))
  }

  /** `get_average_temperature(date)`: a missing date raises ValueError before
      anything else. The cache is keyed on the month alone. */
  function GetAverageTemperature(sc: Scraper, date: Option<Date>, site: Site): (o: Outcome)
    ensures date.None? ==> o == Outcome(sc, false, Failure(ValueError))
    ensures date.Some? ==>
      && (o.fetched <==> sc.averageCache.None? || sc.averageCache.value.month != date.value.month)
      && (!o.fetched ==> o.state == sc)
      && (o.fetched ==> o.state.averageCache == Some(AverageCache(date.value.month, site(date.value.year, date.value.month))))
      && o.state.cache == sc.cache
      && o.value == ReadCell(o.state.averageCache.value.rows, AverageDataStartRow + date.value.day, AverageTempIdx)
  {
    if date.None? then Outcome(sc, false, Failure(ValueError))
    else
      var d := date.value;
      var hit := sc.averageCache.Some? && sc.averageCache.value.month == d.month;
      var state := if hit then sc else sc.(averageCache := Some(AverageCache(d.month, site(d.year, d.month))));
      Outcome(state, !hit, ReadCell(state.averageCache.value.rows, AverageDataStartRow + d.day, AverageTempIdx))
  }

  /** The cached page of a month is never refreshed: when the site has
      since published the row of a later day, a read of that day from a
      page cached before it appeared still raises IndexError. */
  lemma StaleMonthPage(sc: Scraper, d: Date, yesterday: Date, site: Site)
    requires sc.cache.Some? && sc.cache.value.year == d.year && sc.cache.value.month == d.month
    requires DataStartRow + d.day >= |sc.cache.value.rows|
    requires DataStartRow + d.day < |site(d.year, d.month)| && TempIdx < |site(d.year, d.month)[DataStartRow + d.day]|
    ensures !GetTemperature(sc, Some(d), yesterday, site).fetched
    ensures GetTemperature(sc, Some(d), yesterday, site).value == Failure(IndexError)
    ensures ReadCell(site(d.year, d.month), DataStartRow + d.day, TempIdx) != Failure(IndexError)
  {
  }

  /** A second read in the same year and month is served from the cache and
      reads the same page. */
  lemma SameMonthFetchesOnce(sc: Scraper, d1: Date, d2: Date, yesterday: Date, site: Site)
    requires d1.year == d2.year && d1.month == d2.month
    ensures var o1 := GetTemperature(sc, Some(d1), yesterday, site);
            var o2 := GetTemperature(o1.state, Some(d2), yesterday, site);
            !o2.fetched && o2.state == o1.state
  {
  }

  /** The average cache ignores the year: after a read for one year, a read
      for the same month of another year is not fetched and comes from the
      page of the first year. */
  lemma AverageIgnoresYear(sc: Scraper, d1: Date, d2: Date, site: Site)
    requires d1.month == d2.month && d1.year != d2.year
    ensures var o1 := GetAverageTemperature(sc, Some(d1), site);
            var o2 := GetAverageTemperature(o1.state, Some(d2), site);
            && !o2.fetched
            && (o1.fetched ==> o2.value == ReadCell(site(d1.year, d1.month), AverageDataStartRow + d2.day, AverageTempIdx))
  {
  }

  // ---------------------------------------------------------------------
  // `^.*prec_no=(\d+).*$` and `^.*block_no=(\d+).*$`
  // ---------------------------------------------------------------------

  const PrecKey: string := "prec_no="
  const BlockKey: string := "block_no="

  /** `key` occurs at `p` and is followed by a digit. */
  predicate KeyAt(s: string, key: string, p: nat)
  {
    p + |key| < |s| && s[p..p + |key|] == key && IsDigit(s[p + |key|])
  }

  /** Length of the longest prefix of `s` made of digits. */
  function DigitRun(s: string): (n: nat)
    ensures n <= |s|
    ensures forall k :: 0 <= k < n ==> IsDigit(s[k])
    ensures n < |s| ==> !IsDigit(s[n])
  {
    if |s| == 0 || !IsDigit(s[0]) then 0 else 1 + DigitRun(s[1..])
  }

  /** The last position below `n` where the key occurs followed by a digit. */
  function LastKeyAt(s: string, key: string, n: nat): (p: Option<nat>)
    ensures p.Some? ==> p.value < n && KeyAt(s, key, p.value)
    ensures p.Some? ==> forall q :: p.value < q < n ==> !KeyAt(s, key, q)
    ensures p.None? ==> forall q :: 0 <= q < n ==> !KeyAt(s, key, q)
  {
    if n == 0 then None
    else if KeyAt(s, key, n - 1) then Some(n - 1)
    else LastKeyAt(s, key, n - 1)
  }

  /** The line `^...$` can match: `s` without one final newline. */
  function Line(s: string): (line: string)
    ensures s == line || s == line + ['\n']
  {
    if |s| > 0 && s[|s| - 1] == '\n' then s[..|s| - 1] else s
  }

  /** The captured digits of `^.*KEY(\d+).*$` matched against `s`. `.` does
      not match a newline and `$` also matches just before a final newline,
      so the match needs a line without newlines, possibly followed by one
      final newline. On that line the greedy `.*` selects the last occurrence
      of the key followed by a digit, and `\d+` takes all the digits after
      it. */
  function ParamValue(s: string, key: string): (g: Option<string>)
    ensures g.Some? ==> |g.value| > 0 && forall k :: 0 <= k < |g.value| ==> IsDigit(g.value[k])
  {
    var line := Line(s);
    if '\n' in line then None
    else
      match LastKeyAt(line, key, |line|)
      case None => None
      case Some(p) =>
        var start := p + |key|;
        Some(line[start..start + DigitRun(line[start..])])
  }

  /** The match fails on a second line, and otherwise exactly when the key
      followed by a digit does not occur; when it succeeds the group is the
      whole run of digits after the last such occurrence. */
  lemma ParamValueSpec(s: string, key: string)
    ensures '\n' in Line(s) ==> ParamValue(s, key).None?
    ensures '\n' !in Line(s) ==>
              (ParamValue(s, key).None? <==> forall q :: 0 <= q < |Line(s)| ==> !KeyAt(Line(s), key, q))
    ensures ParamValue(s, key).Some? ==> exists p :: LastDigitsAt(Line(s), key, p, ParamValue(s, key).value)
  {
    var line := Line(s);
    if '\n' !in line {
      var lp := LastKeyAt(line, key, |line|);
      if lp.Some? {
        var p := lp.value;
        assert LastDigitsAt(line, key, p, ParamValue(s, key).value);
      }
    }
  }

  /** `p` is the last position of `line` where the key is followed by a
      digit, and `g` is the full run of digits after it. */
  predicate LastDigitsAt(line: string, key: string, p: int, g: string)
  {
    && 0 <= p < |line| && KeyAt(line, key, p)
    && (forall q :: p < q < |line| ==> !KeyAt(line, key, q))
    && g == line[p + |key|..p + |key| + DigitRun(line[p + |key|..])]
  }

  // ---------------------------------------------------------------------
  // `get_prefecture_list` and `get_block_list`
  // ---------------------------------------------------------------------

  /** An `<area>` element: its `alt` and `href` attributes. */
  datatype Area = Area(alt: string, href: string)

  datatype Prefecture = Prefecture(code: Option<string>, name: string)

  datatype Block = Block(prefCode: string, code: string, name: string)

  /** `get_prefecture_list`: one entry per area, in order; the code is None
      when the link carries no `prec_no=` followed by digits. */
  function PrefectureList(areas: seq<Area>): (r: seq<Prefecture>)
    ensures |r| == |areas|
    ensures forall i :: 0 <= i < |areas| ==>
              r[i].name == areas[i].alt && r[i].code == ParamValue(areas[i].href, PrecKey)
  {
    if |areas| == 0 then []
    else PrefectureList(areas[..|areas| - 1]) + [Prefecture(ParamValue(areas[|areas| - 1].href, PrecKey), areas[|areas| - 1].alt)]
  }

  /** The block an area yields, or None when the loop skips it: no prefecture
      code, no block code, or the block code `00` of a whole-prefecture
      area. */
  function Candidate(a: Area): (b: Option<Block>)
    ensures b.Some? <==>
              ParamValue(a.href, PrecKey).Some? && ParamValue(a.href, BlockKey).Some?
              && ParamValue(a.href, BlockKey).value != "00"
    ensures b.Some? ==>
              b.value == Block(ParamValue(a.href, PrecKey).value, ParamValue(a.href, BlockKey).value, a.alt)
  {
    match ParamValue(a.href, PrecKey)
    case None => None
    case Some(pref) =>
      match ParamValue(a.href, BlockKey)
      case None => None
      case Some(code) => if code == "00" then None else Some(Block(pref, code, a.alt))
  }

  /** What the loop sees, area by area. */
  function Candidates(areas: seq<Area>): (cs: seq<Option<Block>>)
    ensures |cs| == |areas|
    ensures forall i :: 0 <= i < |areas| ==> cs[i] == Candidate(areas[i])
  {
    seq(|areas|, i requires 0 <= i < |areas| => Candidate(areas[i]))
  }

  /** Some candidate among `cs[..n]` is `b`. */
  predicate Yields(cs: seq<Option<Block>>, n: nat, b: Block)
    requires n <= |cs|
  {
    exists i :: 0 <= i < n && cs[i] == Some(b)
  }

  predicate NoDuplicates(bs: seq<Block>)
  {
    forall i, j :: 0 <= i < j < |bs| ==> bs[i] != bs[j]
  }

  /** The loop body of `get_block_list` over the candidates: a block is
      appended only when it is not yet in the list. */
  function Dedup(cs: seq<Option<Block>>): (r: seq<Block>)
    ensures NoDuplicates(r)
    ensures forall b :: b in r <==> Yields(cs, |cs|, b)
  {
    if |cs| == 0 then []
    else
      var prev := Dedup(cs[..|cs| - 1]);
      YieldsLast(cs);
      match cs[|cs| - 1]
      case None => prev
      case Some(b) => if b in prev then prev else prev + [b]
  }

  /** `get_block_list`. The list never holds a block twice and holds exactly
      the blocks some area yields. */
  function BlockList(areas: seq<Area>): (r: seq<Block>)
    ensures NoDuplicates(r)
    ensures forall b :: b in r <==> exists i :: 0 <= i < |areas| && Candidate(areas[i]) == Some(b)
  {
    var cs := Candidates(areas);
    assert forall b :: Yields(cs, |cs|, b) <==> exists i :: 0 <= i < |areas| && Candidate(areas[i]) == Some(b);
    Dedup(cs)
  }

  /** A candidate list yields what its front part yields and what its last
      candidate is. */
  lemma YieldsLast(cs: seq<Option<Block>>)
    requires |cs| > 0
    ensures forall b :: Yields(cs, |cs|, b) <==> Yields(cs[..|cs| - 1], |cs| - 1, b) || cs[|cs| - 1] == Some(b)
  {
    var p := cs[..|cs| - 1];
    forall b | Yields(p, |p|, b) ensures Yields(cs, |cs|, b) {
      var i :| 0 <= i < |p| && p[i] == Some(b);
      assert cs[i] == p[i];
    }
    forall b | Yields(cs, |cs|, b) && cs[|cs| - 1] != Some(b) ensures Yields(p, |p|, b) {
      var i :| 0 <= i < |cs| && cs[i] == Some(b);
      assert p[i] == cs[i];
    }
  }

  /** Position of the first candidate equal to `b`. */
  function FirstYield(cs: seq<Option<Block>>, b: Block): (i: nat)
    requires Yields(cs, |cs|, b)
    ensures i < |cs| && cs[i] == Some(b)
    ensures forall j :: 0 <= j < i ==> cs[j] != Some(b)
  {
    var p := cs[..|cs| - 1];
    YieldsLast(cs);
    if Yields(p, |p|, b) then
      var i := FirstYield(p, b);
      assert forall j :: 0 <= j <= i ==> p[j] == cs[j];
      i
    else
      assert forall j :: 0 <= j < |p| ==> p[j] == cs[j] && p[j] != Some(b);
      |cs| - 1
  }

  /** Blocks appear in the order in which each first occurs. */
  lemma {:induction false} DedupOrder(cs: seq<Option<Block>>)
    ensures forall i, j :: 0 <= i < j < |Dedup(cs)| ==>
              Yields(cs, |cs|, Dedup(cs)[i]) && Yields(cs, |cs|, Dedup(cs)[j])
              && FirstYield(cs, Dedup(cs)[i]) < FirstYield(cs, Dedup(cs)[j])
  {
    if |cs| > 0 {
      var p := cs[..|cs| - 1];
      DedupOrder(p);
      YieldsLast(cs);
      var prev := Dedup(p);
      var r := Dedup(cs);
      assert forall i :: 0 <= i < |p| ==> p[i] == cs[i];
      assert forall i :: 0 <= i < |prev| ==> r[i] == prev[i];
      forall i, j | 0 <= i < j < |r|
        ensures Yields(cs, |cs|, r[i]) && Yields(cs, |cs|, r[j]) && FirstYield(cs, r[i]) < FirstYield(cs, r[j])
      {
        assert r[i] in r && r[j] in r;
        assert r[i] in prev;
        FirstYieldPrefix(cs, r[i]);
        if j < |prev| {
          assert r[j] in prev;
          FirstYieldPrefix(cs, r[j]);
        } else {
          assert r[j] !in prev;
          assert !Yields(p, |p|, r[j]);
          assert FirstYield(cs, r[j]) == |cs| - 1;
        }
      }
    } else {
      assert Dedup(cs) == [];
    }
  }

  /** A block found in the front part is first found there. */
  lemma FirstYieldPrefix(cs: seq<Option<Block>>, b: Block)
    requires |cs| > 0 && Yields(cs[..|cs| - 1], |cs| - 1, b)
    ensures Yields(cs, |cs|, b) && FirstYield(cs, b) == FirstYield(cs[..|cs| - 1], b)
  {
    YieldsLast(cs);
  }

  /** The blocks of `get_block_list` appear in the order of the first area
      yielding each. */
  lemma BlockListOrder(areas: seq<Area>)
    ensures BlockList(areas) == Dedup(Candidates(areas))
    ensures forall i, j :: 0 <= i < j < |BlockList(areas)| ==>
              Yields(Candidates(areas), |areas|, BlockList(areas)[i])
              && Yields(Candidates(areas), |areas|, BlockList(areas)[j])
              && FirstYield(Candidates(areas), BlockList(areas)[i]) < FirstYield(Candidates(areas), BlockList(areas)[j])
  {
    assert BlockList(areas) == Dedup(Candidates(areas));
    DedupOrder(Candidates(areas));
  }
}

=== FILE: seeds.dfy ===
/** Resolution of the seeded organisms (`create_default_target`). Within one
    organism a stage names its prerequisite by a local id; the loop keeps a
    dictionary from local id to the stage record already stored and turns
    the local id into that record. The database assigns the stored ids; here
    they are handed out one after another from a given first id. */
module Seeds {
  import opened Basics
  import opened Accumulator
  import Table

  /** `InputTargetData`: a stage as written in the seed list. */
  datatype InputStage = InputStage(id: int, refer: Option<int>, state: string, base: real, accum: real)

  /** `InputTarget`: an organism as written in the seed list. */
  datatype InputTarget = InputTarget(kind: string, name: string, datas: seq<InputStage>)

  /** Some earlier entry of `ds[..i]` carries local id `k`. */
  predicate SeenBefore(ds: seq<InputStage>, i: nat, k: int)
    requires i <= |ds|
  {
    exists j :: 0 <= j < i && ds[j].id == k
  }

  /** Every prerequisite is the local id of a stage listed earlier. */
  predicate RefersBack(ds: seq<InputStage>)
  {
    forall i :: 0 <= i < |ds| && ds[i].refer.Some? ==> SeenBefore(ds, i, ds[i].refer.value)
  }

  /** The stored record of input `d`, given its resolved prerequisite. */
  function Record(d: InputStage, id: int, refer: Option<Stage>): (s: Stage)
    ensures s.id == id && s.state == d.state && s.base == d.base && s.accum == d.accum && s.refer == refer
  {
    Stage(id, d.state, d.base, d.accum, refer)
  }

  /** The inner loop over one organism's stages, returning the dictionary and
      the stored records. A prerequisite id not yet in the dictionary raises
      KeyError. On success each record takes its fields from its input and
      has a prerequisite exactly when its input names one. */
  function Resolve(ds: seq<InputStage>, first: int): (r: Result<(map<int, Stage>, seq<Stage>)>)
    ensures r.Failure? ==> r.error == KeyError
    ensures r.Success? ==> |r.value.1| == |ds|
    ensures r.Success? ==> forall i :: 0 <= i < |ds| ==> Stored(ds[i], first + i, r.value.1[i])
  {
    if |ds| == 0 then Success((map[], []))
    else
      var p := ds[..|ds| - 1];
      var d := ds[|ds| - 1];
      match Resolve(p, first)
      case Failure(e) => Failure(e)
      case Success((dict, out)) =>
        if d.refer.Some? && d.refer.value !in dict then Failure(KeyError)
        else
          var s := Record(d, first + |out|, if d.refer.Some? then Some(dict[d.refer.value]) else None);
          assert forall i :: 0 <= i < |p| ==> p[i] == ds[i] && (out + [s])[i] == out[i];
          Success((dict[d.id := s], out + [s]))
  }

  /** Record `s` was stored for input `d` under id `id`. */
  predicate Stored(d: InputStage, id: int, s: Stage)
  {
    s.id == id && s.state == d.state && s.base == d.base && s.accum == d.accum
    && (s.refer.Some? <==> d.refer.Some?)
  }

  /** `j` is the last entry before `i` whose local id is `k`. */
  predicate LastBefore(ds: seq<InputStage>, i: nat, k: int, j: nat)
    requires i <= |ds|
  {
    j < i && ds[j].id == k && forall m :: j < m < i ==> ds[m].id != k
  }

  /** After the loop the dictionary holds exactly the local ids seen. */
  lemma {:induction false} ResolveKeys(ds: seq<InputStage>, first: int, dict: map<int, Stage>, out: seq<Stage>)
    requires Resolve(ds, first) == Success((dict, out))
    ensures forall k :: k in dict <==> SeenBefore(ds, |ds|, k)
  {
    if |ds| > 0 {
      var p := ds[..|ds| - 1];
      var d := ds[|ds| - 1];
      var dict0 := Resolve(p, first).value.0;
      ResolveKeys(p, first, dict0, Resolve(p, first).value.1);
      assert dict.Keys == dict0.Keys + {d.id};
      forall k ensures k in dict <==> SeenBefore(ds, |ds|, k) {
        if k in dict0 {
          var j :| 0 <= j < |p| && p[j].id == k;
          assert ds[j].id == k;
        }
        if SeenBefore(ds, |ds|, k) && k != d.id {
          var j :| 0 <= j < |ds| && ds[j].id == k;
          assert p[j].id == k;
        }
      }
    }
  }

  /** Each id of the dictionary is bound to the record of the last input
      carrying it. */
  lemma {:induction false} ResolveValues(ds: seq<InputStage>, first: int, dict: map<int, Stage>, out: seq<Stage>)
    requires Resolve(ds, first) == Success((dict, out))
    ensures forall k :: k in dict ==> exists j :: 0 <= j < |ds| && LastBefore(ds, |ds|, k, j) && dict[k] == out[j]
  {
    if |ds| > 0 {
      var p := ds[..|ds| - 1];
      var d := ds[|ds| - 1];
      var dict0 := Resolve(p, first).value.0;
      var out0 := Resolve(p, first).value.1;
      ResolveValues(p, first, dict0, out0);
      assert out == out0 + [out[|p|]] && dict == dict0[d.id := out[|p|]];
      forall k | k in dict ensures exists j :: 0 <= j < |ds| && LastBefore(ds, |ds|, k, j) && dict[k] == out[j] {
        if k == d.id {
          assert LastBefore(ds, |ds|, k, |p|);
        } else {
          var j :| 0 <= j < |p| && LastBefore(p, |p|, k, j) && dict0[k] == out0[j];
          assert ds[j] == p[j] && out[j] == out0[j];
          assert forall m :: j < m < |p| ==> ds[m] == p[m];
          assert LastBefore(ds, |ds|, k, j);
        }
      }
    }
  }

  /** Each prerequisite resolves to the record of the last earlier input
      carrying its local id. */
  lemma ResolveRefers(ds: seq<InputStage>, first: int, i: nat)
    requires Resolve(ds, first).Success? && i < |ds| && ds[i].refer.Some?
    ensures exists j :: 0 <= j < i && LastBefore(ds, i, ds[i].refer.value, j)
              && Resolve(ds, first).value.1[i].refer == Some(Resolve(ds, first).value.1[j])
  {
    var out := Resolve(ds, first).value.1;
    ResolvePrefix(ds, first, i + 1);
    ResolvePrefix(ds, first, i);
    var p := ds[..i + 1];
    var q := ds[..i];
    assert q == p[..|p| - 1] && p[|p| - 1] == ds[i];
    var dict := Resolve(q, first).value.0;
    var outQ := Resolve(q, first).value.1;
    ResolveValues(q, first, dict, outQ);
    var k := ds[i].refer.value;
    assert Resolve(p, first).value.1[i] == out[i];
    assert out[i].refer == Some(dict[k]);
    var j :| 0 <= j < |q| && LastBefore(q, |q|, k, j) && dict[k] == outQ[j];
    assert forall m :: 0 <= m < i ==> q[m] == ds[m];
    assert outQ[j] == out[j];
    assert LastBefore(ds, i, k, j);
  }

  /** Resolving a prefix yields the prefix of the records. */
  lemma {:induction false} ResolvePrefix(ds: seq<InputStage>, first: int, n: nat)
    requires Resolve(ds, first).Success? && n <= |ds|
    ensures Resolve(ds[..n], first).Success?
    ensures Resolve(ds[..n], first).value.1 == Resolve(ds, first).value.1[..n]
    decreases |ds|
  {
    if n < |ds| {
      var p := ds[..|ds| - 1];
      assert p[..n] == ds[..n];
      ResolvePrefix(p, first, n);
    } else {
      assert ds[..n] == ds;
    }
  }

  /** The resolution fails exactly when some prerequisite is not the id of an
      earlier stage. */
  lemma {:induction false} ResolveFailsIff(ds: seq<InputStage>, first: int)
    ensures Resolve(ds, first).Failure? <==> !RefersBack(ds)
  {
    if |ds| > 0 {
      var p := ds[..|ds| - 1];
      var d := ds[|ds| - 1];
      ResolveFailsIff(p, first);
      if Resolve(p, first).Success? {
        ResolveKeys(p, first, Resolve(p, first).value.0, Resolve(p, first).value.1);
      }
      assert forall i :: 0 <= i < |p| ==> p[i] == ds[i];
      assert forall i, k :: 0 <= i < |p| ==> (SeenBefore(p, i, k) <==> SeenBefore(ds, i, k));
      if RefersBack(ds) {
        assert RefersBack(p);
      } else if RefersBack(p) {
        assert d.refer.Some? && !SeenBefore(ds, |ds| - 1, d.refer.value);
        assert !SeenBefore(p, |p|, d.refer.value);
      }
    }
  }

  /** The outer loop: for each organism look its kind up among the known
      kinds, then resolve its stages, handing out ids in one running
      sequence. An unknown kind reaches `raise Error(...)`, and `Error` is
      not a defined name, so it surfaces as NameError. */
  function CreateTargets(kinds: set<string>, ts: seq<InputTarget>, first: int): (r: Result<seq<Table.Organism>>)
    ensures r.Success? ==> |r.value| == |ts|
    ensures r.Success? ==> forall i :: 0 <= i < |ts| ==>
              r.value[i].name == ts[i].name && |r.value[i].datas| == |ts[i].datas|
    ensures r.Failure? ==> r.error == KeyError || r.error == NameError
    decreases |ts|
  {
    if |ts| == 0 then Success([])
    else if ts[0].kind !in kinds then Failure(NameError)
    else
      match Resolve(ts[0].datas, first)
      case Failure(e) => Failure(e)
      case Success((_, stages)) =>
        match CreateTargets(kinds, ts[1..], first + |stages|)
        case Failure(e) => Failure(e)
        case Success(rest) => Success([Table.Organism(ts[0].name, stages)] + rest)
  }

  /** Creation succeeds exactly when every kind is known and every
      organism's prerequisites refer back. */
  lemma {:induction false} CreateTargetsSucceedsIff(kinds: set<string>, ts: seq<InputTarget>, first: int)
    ensures CreateTargets(kinds, ts, first).Success? <==>
              forall i :: 0 <= i < |ts| ==> ts[i].kind in kinds && RefersBack(ts[i].datas)
    decreases |ts|
  {
    if |ts| > 0 {
      ResolveFailsIff(ts[0].datas, first);
      if ts[0].kind in kinds && RefersBack(ts[0].datas) {
        var stages := Resolve(ts[0].datas, first).value.1;
        CreateTargetsSucceedsIff(kinds, ts[1..], first + |stages|);
        assert forall i :: 1 <= i < |ts| ==> ts[i] == ts[1..][i - 1];
      }
    }
  }

  /** The seeded pests: seven insects with their stages, as listed in the
      source. */
  const Insect: string := "虫"

  const DefaultTargets: seq<InputTarget> := [
    InputTarget(Insect, "ブドウトラカミキリ", [
      InputStage(1, None, "卵～幼虫", 9.7, 114.1),
      InputStage(2, None, "卵～成虫羽化", 8.0, 408.4)]),
    InputTarget(Insect, "クワコナカイガラムシ", [
      InputStage(1, None, "卵～幼虫", 12.3, 127.0),
      InputStage(2, Some(1), "幼虫～産卵前期", 9.7, 549.0),
      InputStage(3, Some(1), "雌幼虫～成虫羽化", 10.8, 346.0)]),
    InputTarget(Insect, "ミカンキイロアザミウマ", [
      InputStage(1, None, "卵～幼虫", 9.2, 50.0),
      InputStage(2, Some(1), "幼虫～蛹", 9.0, 90.3),
      InputStage(3, Some(2), "蛹～羽化", 9.8, 66.7),
      InputStage(4, Some(1), "幼虫～成虫羽化", 9.5, 194.0)]),
    InputTarget(Insect, "チャノキイロアザミウマ", [
      InputStage(1, None, "（大阪）　卵～幼虫", 9.5, 119.0),
      InputStage(2, Some(1), "（大阪）　幼虫～成虫羽化", 7.7, 181.8),
      InputStage(3, None, "（静岡）　卵～成虫羽化", 9.7, 265.0)]),
    InputTarget(Insect, "フタテンヒメヨコバイ", [
      InputStage(1, None, "卵～幼虫", 10.8, 125.0),
      InputStage(2, Some(1), "幼虫～成虫羽化", 13.0, 200.0),
      InputStage(3, None, "卵～成虫羽化", 11.0, 333.0)]),
    InputTarget(Insect, "コウモリガ", [
      InputStage(1, None, "卵～幼虫", 6.7, 200.0),
      InputStage(2, None, "卵～4齢幼虫", 7.2, 390.0)]),
    InputTarget(Insect, "ハスモンヨトウ", [
      InputStage(1, None, "卵～幼虫", 10.1, 63.7),
      InputStage(2, None, "卵～成虫羽化", 10.3, 526.3),
      InputStage(3, None, "卵～卵", 10.3, 628.7)])
  ]

  /** Every seeded prerequisite refers back within its organism, so seeding
      succeeds whenever the insect kind exists, and fails with NameError
      when it does not. */
  lemma DefaultTargetsResolve(kinds: set<string>, first: int)
    ensures CreateTargets(kinds, DefaultTargets, first).Success? <==> Insect in kinds
    ensures Insect !in kinds ==> CreateTargets(kinds, DefaultTargets, first) == Failure(NameError)
  {
    forall i | 0 <= i < |DefaultTargets| ensures RefersBack(DefaultTargets[i].datas) {
      var ds := DefaultTargets[i].datas;
      forall k | 0 <= k < |ds| && ds[k].refer.Some? ensures SeenBefore(ds, k, ds[k].refer.value) {
        if i == 2 && k == 2 {
          assert ds[1].id == 2;
        } else {
          assert ds[0].id == 1;
        }
      }
    }
    CreateTargetsSucceedsIff(kinds, DefaultTargets, first);
  }
}

=== FILE: table.dfy ===
/** The table builder (`calc_table_data`): one header row of raw daily
    temperatures, then one row per stage of every organism, holding the
    stage's day-by-day accumulated effective temperature. The pandas frame
    becomes a sequence of (row key, row) pairs with `.loc` semantics. */
module Table {
  import opened Basics
  import opened Accumulator
  import Keyed

  /** One stored daily temperature; the date is a day number. */
  datatype Observation = Observation(date: int, temp: real)

  /** An organism (`Target`) with its stages in registration order. */
  datatype Organism = Organism(name: string, datas: seq<Stage>)

  /** One table row after the `Id` index: name, state, base, threshold
      (`accum`), final total, then one value per date column. */
  datatype Row = Row(name: string, state: string, base: real, accum: real, total: real, values: seq<real>)

  /** The row key pandas uses for the header row. */
  const HeaderKey: int := 0

  /** The `{temp.date: temp ...}` dict: one column per distinct date. */
  function Columns(obs: seq<Observation>): seq<(int, real)>
  {
    Keyed.FromPairs(seq(|obs|, i requires 0 <= i < |obs| => (obs[i].date, obs[i].temp)))
  }

  /** The raw temperatures of the columns, in column order. */
  function ColumnTemps(cols: seq<(int, real)>): seq<real>
  {
    seq(|cols|, i requires 0 <= i < |cols| => cols[i].1)
  }

  /** The header row: the raw temperatures and their plain sum. */
  function HeaderRow(temps: seq<real>): Row
  {
    Row("気温", "-", 0.0, 0.0, Sum(temps), temps)
  }

  /** The row of one stage, with a fresh self-mode accumulator fed every
      column; reading the last day value fails when there are no columns. */
  function StageRow(name: string, d: Stage, temps: seq<real>): (r: Result<Row>)
    ensures r.Failure? <==> |temps| == 0
    ensures r.Failure? ==> r.error == IndexError
    ensures r.Success? ==>
              && r.value.name == name && r.value.state == d.state
              && r.value.base == d.base && r.value.accum == d.accum
              && r.value.values == Totals(Init(d, true), temps)
              && r.value.total == Run(Init(d, true), temps).current
              && r.value.total == r.value.values[|temps| - 1]
  {
    var vs := Totals(Init(d, true), temps);
    if |vs| == 0 then Failure(IndexError)
    else
      assert temps[..|temps|] == temps;
      Success(Row(name, d.state, d.base, d.accum, vs[|vs| - 1], vs))
  }

  /** The rows of one organism's stages, the first carrying `name` and the
      rest an empty name; the first failure stops the build. */
  function StageRows(name: string, ds: seq<Stage>, temps: seq<real>): (r: Result<seq<(int, Row)>>)
    decreases |ds|
    ensures r.Failure? <==> |temps| == 0 && |ds| > 0
    ensures r.Success? ==> |r.value| == |ds|
  {
    if |ds| == 0 then Success([])
    else
      match StageRow(name, ds[0], temps)
      case Failure(e) => Failure(e)
      case Success(row) =>
        match StageRows("", ds[1..], temps)
        case Failure(e) => Failure(e)
        case Success(rest) => Success([(ds[0].id, row)] + rest)
  }

  /** Row `i` of an organism's block is its `i`-th stage, keyed by the
      stage id and named only when it is the first. */
  lemma {:induction false} StageRowsAt(name: string, ds: seq<Stage>, temps: seq<real>, i: nat)
    requires StageRows(name, ds, temps).Success? && i < |ds|
    decreases i
    ensures StageRow(if i == 0 then name else "", ds[i], temps).Success?
    ensures StageRows(name, ds, temps).value[i] ==
              (ds[i].id, StageRow(if i == 0 then name else "", ds[i], temps).value)
  {
    if i > 0 {
      StageRowsAt("", ds[1..], temps, i - 1);
      assert ds[1..][i - 1] == ds[i];
    }
  }

  /** Number of stage rows contributed by the first `j` organisms. */
  function Offset(os: seq<Organism>, j: nat): nat
    requires j <= |os|
  {
    if j == 0 then 0 else Offset(os, j - 1) + |os[j - 1].datas|
  }

  /** The stage rows of every organism, organism by organism. */
  function AllRows(os: seq<Organism>, temps: seq<real>): Result<seq<(int, Row)>>
  {
    if |os| == 0 then Success([])
    else
      match AllRows(os[..|os| - 1], temps)
      case Failure(e) => Failure(e)
      case Success(front) =>
        match StageRows(os[|os| - 1].name, os[|os| - 1].datas, temps)
        case Failure(e) => Failure(e)
        case Success(block) => Success(front + block)
  }

  predicate HasStages(os: seq<Organism>)
  {
    exists j :: 0 <= j < |os| && |os[j].datas| > 0
  }

  /** `calc_table_data`: the header row stored under key 0, then every stage
      row stored under its stage id. */
  function BuildTable(os: seq<Organism>, obs: seq<Observation>): Result<seq<(int, Row)>>
  {
    var temps := ColumnTemps(Columns(obs));
    match AllRows(os, temps)
    case Failure(e) => Failure(e)
    case Success(rows) => Success(Keyed.FromPairs([(HeaderKey, HeaderRow(temps))] + rows))
  }

  /** The per-stage loop of the builder: a fresh self-mode accumulator fed the
      temperatures one by one, recording the total after each day. */
  method AccumulateSeries(d: Stage, temps: seq<real>) returns (vs: seq<real>)
    ensures |vs| == |temps|
    ensures forall k :: 0 < k <= |temps| ==> vs[k - 1] == Run(Init(d, true), temps[..k]).current
  {
    var calcModule := Init(d, true);
    vs := [];
    var i := 0;
    while i < |temps|
      invariant 0 <= i <= |temps|
      invariant |vs| == i
      invariant calcModule == Run(Init(d, true), temps[..i])
      invariant forall k :: 0 < k <= i ==> vs[k - 1] == Run(Init(d, true), temps[..k]).current
    {
      assert temps[..i + 1][..i] == temps[..i];
      calcModule := Step(calcModule, temps[i]);
      vs := vs + [calcModule.current];
      i := i + 1;
    }
  }

  /** The (date, temperature) pairs the dict comprehension stores. */
  function DatePairs(obs: seq<Observation>): (ps: seq<(int, real)>)
    ensures |ps| == |obs|
    ensures forall i :: 0 <= i < |obs| ==> ps[i] == (obs[i].date, obs[i].temp)
  {
    seq(|obs|, i requires 0 <= i < |obs| => (obs[i].date, obs[i].temp))
  }

  /** The columns hold each date of the series exactly once, and no other. */
  lemma ColumnsDates(obs: seq<Observation>)
    ensures Keyed.DistinctKeys(Columns(obs))
    ensures forall d :: Keyed.HasKey(Columns(obs), d) <==> exists i :: 0 <= i < |obs| && obs[i].date == d
  {
    var ps := DatePairs(obs);
    assert Columns(obs) == Keyed.FromPairs(ps);
    Keyed.FromPairsKeys(ps);
    forall d ensures Keyed.HasKey(ps, d) <==> exists i :: 0 <= i < |obs| && obs[i].date == d {
      if exists i :: 0 <= i < |obs| && obs[i].date == d {
        var i :| 0 <= i < |obs| && obs[i].date == d;
        assert ps[i].0 == d;
      }
    }
  }

  /** Observation `(d, t)` is in the series and no later one has date `d`. */
  predicate StoredLast(obs: seq<Observation>, d: int, t: real)
  {
    exists i :: 0 <= i < |obs| && obs[i] == Observation(d, t) &&
      forall j :: i < j < |obs| ==> obs[j].date != d
  }

  /** Date `d` occurs in the series before date `e` first does. */
  predicate SeenFirst(obs: seq<Observation>, d: int, e: int)
  {
    exists i :: 0 <= i < |obs| && obs[i].date == d &&
      forall j :: 0 <= j <= i ==> obs[j].date != e
  }

  /** Each column holds the temperature stored last for its date. */
  lemma ColumnsTemps(obs: seq<Observation>)
    ensures forall c :: 0 <= c < |Columns(obs)| ==> StoredLast(obs, Columns(obs)[c].0, Columns(obs)[c].1)
  {
    forall c | 0 <= c < |Columns(obs)| {
      ColumnTempAt(obs, c);
    }
  }

  lemma ColumnTempAt(obs: seq<Observation>, c: int)
    requires 0 <= c < |Columns(obs)|
    ensures StoredLast(obs, Columns(obs)[c].0, Columns(obs)[c].1)
  {
    var ps := DatePairs(obs);
    var cols := Columns(obs);
    assert cols == Keyed.FromPairs(ps);
    Keyed.FromPairsValues(ps);
    var k := cols[c].0;
    assert Keyed.HasKey(ps, k) && cols[c].1 == Keyed.LastValue(ps, k);
    var v := Keyed.LastValue(ps, k);
    var i :| 0 <= i < |ps| && ps[i] == (k, v) && forall j :: i < j < |ps| ==> ps[j].0 != k;
    assert obs[i] == Observation(k, cols[c].1);
    assert forall j :: i < j < |obs| ==> obs[j].date != k by {
      forall j | i < j < |obs| ensures obs[j].date != k {
        assert ps[j].0 == obs[j].date;
      }
    }
  }

  /** Columns appear in the order their dates first appear in the series. */
  lemma ColumnsOrder(obs: seq<Observation>)
    ensures forall a, b :: 0 <= a < b < |Columns(obs)| ==> SeenFirst(obs, Columns(obs)[a].0, Columns(obs)[b].0)
  {
    forall a, b | 0 <= a < b < |Columns(obs)| {
      ColumnOrderAt(obs, a, b);
    }
  }

  lemma ColumnOrderAt(obs: seq<Observation>, a: int, b: int)
    requires 0 <= a < b < |Columns(obs)|
    ensures SeenFirst(obs, Columns(obs)[a].0, Columns(obs)[b].0)
  {
    var ps := DatePairs(obs);
    var cols := Columns(obs);
    assert cols == Keyed.FromPairs(ps);
    Keyed.FromPairsOrder(ps);
    assert Keyed.HasKey(ps, cols[a].0) && Keyed.HasKey(ps, cols[b].0);
    var i := Keyed.FirstIndex(ps, cols[a].0);
    var i' := Keyed.FirstIndex(ps, cols[b].0);
    assert i < i';
    assert obs[i].date == cols[a].0;
    assert forall j :: 0 <= j <= i ==> obs[j].date != cols[b].0 by {
      forall j | 0 <= j <= i ensures obs[j].date != cols[b].0 {
        assert ps[j].0 == obs[j].date;
      }
    }
  }

  /** There are no more columns than observations, and none only when the
      series is empty. */
  lemma ColumnsSize(obs: seq<Observation>)
    ensures |Columns(obs)| <= |obs|
    ensures |Columns(obs)| == 0 <==> |obs| == 0
  {
    var ps := DatePairs(obs);
    assert Columns(obs) == Keyed.FromPairs(ps);
    ColumnsCount(ps);
    if |obs| > 0 {
      Keyed.FromPairsFirst(ps);
    }
  }

  /** Storing pairs never yields more entries than pairs. */
  lemma {:induction false} ColumnsCount(ps: seq<(int, real)>)
    ensures |Keyed.FromPairs(ps)| <= |ps|
  {
    if |ps| > 0 {
      ColumnsCount(ps[..|ps| - 1]);
    }
  }

  /** The build fails (pandas raises IndexError on `target_temp_list[-1]`)
      exactly when the series is empty and some organism has a stage. */
  lemma {:induction false} BuildFailsIff(os: seq<Organism>, obs: seq<Observation>)
    ensures BuildTable(os, obs).Failure? <==> |obs| == 0 && HasStages(os)
    ensures BuildTable(os, obs).Failure? ==> BuildTable(os, obs).error == IndexError
  {
    ColumnsSize(obs);
    AllRowsFailsIff(os, ColumnTemps(Columns(obs)));
  }

  lemma {:induction false} AllRowsFailsIff(os: seq<Organism>, temps: seq<real>)
    ensures AllRows(os, temps).Failure? <==> |temps| == 0 && HasStages(os)
    ensures AllRows(os, temps).Failure? ==> AllRows(os, temps).error == IndexError
  {
    if |os| > 0 {
      var front := os[..|os| - 1];
      AllRowsFailsIff(front, temps);
      assert HasStages(os) <==> HasStages(front) || |os[|os| - 1].datas| > 0 by {
        if HasStages(os) && |os[|os| - 1].datas| == 0 {
          var j :| 0 <= j < |os| && |os[j].datas| > 0;
          assert front[j] == os[j];
        }
        if HasStages(front) {
          var j :| 0 <= j < |front| && |front[j].datas| > 0;
          assert os[j] == front[j];
        }
      }
    }
  }

  /** Where the rows of organism `j` sit: stage `s` of organism `j` is row
      `Offset(os, j) + s`, keyed by the stage id, named only when `s == 0`. */
  lemma AllRowsLayout(os: seq<Organism>, temps: seq<real>, j: nat, s: nat)
    requires AllRows(os, temps).Success?
    requires j < |os| && s < |os[j].datas|
    ensures |AllRows(os, temps).value| == Offset(os, |os|)
    ensures Offset(os, j) + s < |AllRows(os, temps).value|
    ensures StageRow(if s == 0 then os[j].name else "", os[j].datas[s], temps).Success?
    ensures AllRows(os, temps).value[Offset(os, j) + s] ==
              (os[j].datas[s].id, StageRow(if s == 0 then os[j].name else "", os[j].datas[s], temps).value)
  {
    AllRowsSize(os, temps);
    AllRowsBlock(os, temps, j, s);
    StageRowsAt(os[j].name, os[j].datas, temps, s);
  }

  /** Stage `s` of organism `j` is row `Offset(os, j) + s`, the `s`-th row
      of that organism's own block. */
  lemma {:induction false} AllRowsBlock(os: seq<Organism>, temps: seq<real>, j: nat, s: nat)
    requires AllRows(os, temps).Success?
    requires j < |os| && s < |os[j].datas|
    ensures StageRows(os[j].name, os[j].datas, temps).Success?
    ensures Offset(os, j) + s < |AllRows(os, temps).value|
    ensures AllRows(os, temps).value[Offset(os, j) + s] == StageRows(os[j].name, os[j].datas, temps).value[s]
  {
    var n := |os| - 1;
    if j < n {
      var front := os[..n];
      AllRowsSplit(os, temps);
      var fr := AllRows(front, temps).value;
      var block := StageRows(os[n].name, os[n].datas, temps).value;
      OffsetPrefixAt(os, n, j);
      assert front[j] == os[j];
      AllRowsBlock(front, temps, j, s);
      var k := Offset(os, j) + s;
      assert k == Offset(front, j) + s && k < |fr|;
      ConcatLeft(fr, block, k);
    } else {
      AllRowsBlockLast(os, temps, s);
    }
  }

  /** The last organism's rows close the table. */
  lemma AllRowsBlockLast(os: seq<Organism>, temps: seq<real>, s: nat)
    requires AllRows(os, temps).Success?
    requires |os| > 0 && s < |os[|os| - 1].datas|
    ensures StageRows(os[|os| - 1].name, os[|os| - 1].datas, temps).Success?
    ensures Offset(os, |os| - 1) + s < |AllRows(os, temps).value|
    ensures AllRows(os, temps).value[Offset(os, |os| - 1) + s] ==
              StageRows(os[|os| - 1].name, os[|os| - 1].datas, temps).value[s]
  {
    var n := |os| - 1;
    var front := os[..n];
    AllRowsSplit(os, temps);
    var fr := AllRows(front, temps).value;
    var block := StageRows(os[n].name, os[n].datas, temps).value;
    AllRowsSize(front, temps);
    OffsetPrefixAt(os, n, n);
    assert |front| == n;
    assert Offset(os, n) == |fr|;
    assert |block| == |os[n].datas|;
    ConcatRight(fr, block, s);
  }

  lemma ConcatLeft<T>(a: seq<T>, b: seq<T>, k: nat)
    requires k < |a|
    ensures (a + b)[k] == a[k]
  {
  }

  lemma ConcatRight<T>(a: seq<T>, b: seq<T>, k: nat)
    requires k < |b|
    ensures (a + b)[|a| + k] == b[k]
  {
  }

  /** The rows of all organisms are those of all but the last, followed by
      the last one's. */
  lemma AllRowsSplit(os: seq<Organism>, temps: seq<real>)
    requires AllRows(os, temps).Success? && |os| > 0
    ensures AllRows(os[..|os| - 1], temps).Success?
    ensures StageRows(os[|os| - 1].name, os[|os| - 1].datas, temps).Success?
    ensures AllRows(os, temps).value ==
              AllRows(os[..|os| - 1], temps).value + StageRows(os[|os| - 1].name, os[|os| - 1].datas, temps).value
  {
  }

  lemma {:induction false} OffsetGrows(os: seq<Organism>, i: nat, n: nat)
    requires i <= n <= |os|
    ensures Offset(os, i) <= Offset(os, n)
    decreases n - i
  {
    if i < n {
      OffsetGrows(os, i, n - 1);
    }
  }

  lemma {:induction false} AllRowsSize(os: seq<Organism>, temps: seq<real>)
    requires AllRows(os, temps).Success?
    ensures |AllRows(os, temps).value| == Offset(os, |os|)
  {
    if |os| > 0 {
      var front := os[..|os| - 1];
      AllRowsSize(front, temps);
      OffsetPrefixAt(os, |front|, |front|);
    }
  }

  lemma {:induction false} OffsetPrefixAt(os: seq<Organism>, n: nat, i: nat)
    requires i <= n <= |os|
    ensures Offset(os[..n], i) == Offset(os, i)
  {
    if i > 0 {
      OffsetPrefixAt(os, n, i - 1);
      assert os[..n][i - 1] == os[i - 1];
    }
  }

  /** When stage ids are distinct and never 0, the table is the header row
      followed by every stage row in order, nothing overwritten. */
  lemma BuildTableShape(os: seq<Organism>, obs: seq<Observation>)
    requires BuildTable(os, obs).Success?
    requires Keyed.DistinctKeys(AllRows(os, ColumnTemps(Columns(obs))).value)
    requires !Keyed.HasKey(AllRows(os, ColumnTemps(Columns(obs))).value, HeaderKey)
    ensures
      var temps := ColumnTemps(Columns(obs));
      BuildTable(os, obs).value == [(HeaderKey, HeaderRow(temps))] + AllRows(os, temps).value
  {
    var temps := ColumnTemps(Columns(obs));
    var rows := AllRows(os, temps).value;
    var all := [(HeaderKey, HeaderRow(temps))] + rows;
    assert forall i :: 0 <= i < |rows| ==> rows[i].0 != HeaderKey;
    assert forall i :: 0 < i < |all| ==> all[i] == rows[i - 1];
    Keyed.FromPairsDistinct(all);
  }

  /** Row 0 always carries key 0; unless a stage with id 0 overwrote it, it
      is the header row: the raw temperatures and their sum. */
  lemma HeaderRowFirst(os: seq<Organism>, obs: seq<Observation>)
    requires BuildTable(os, obs).Success?
    ensures |BuildTable(os, obs).value| > 0 && BuildTable(os, obs).value[0].0 == HeaderKey
    ensures !Keyed.HasKey(AllRows(os, ColumnTemps(Columns(obs))).value, HeaderKey) ==>
      var temps := ColumnTemps(Columns(obs));
      && BuildTable(os, obs).value[0].1 == HeaderRow(temps)
      && HeaderRow(temps).values == temps
      && HeaderRow(temps).total == Sum(temps)
  {
    var temps := ColumnTemps(Columns(obs));
    var rows := AllRows(os, temps).value;
    var all := [(HeaderKey, HeaderRow(temps))] + rows;
    Keyed.FromPairsFirst(all);
    if !Keyed.HasKey(rows, HeaderKey) {
      assert forall i :: 0 < i < |all| ==> all[i] == rows[i - 1];
      Keyed.FromPairsValues(all);
      Keyed.LastValueAt(all, HeaderKey, 0);
    }
  }
}

=== FILE: validation.dfy ===
/** The input validators of the entry dialogs (`target_add_check`,
    `target_check`, `target_data_check`). A form is a dictionary from field
    name to a dynamically typed value; reading a field that is not in the
    dictionary raises KeyError, and `len` of a value that is not a string
    raises TypeError. Each check runs in source order and stops at the first
    field it rejects. */
module Validation {
  import opened Basics

  /** The values a form field can hold: `None`, a string, a float, an int,
      or one of the model objects the isinstance checks look for. */
  datatype Value =
    | NoneValue
    | Str(s: string)
    | Float(x: real)
    | Int(n: int)
    | TargetTypeObj
    | TargetObj
    | TargetDataObj

  type Form = map<string, Value>

  /** `data[k] is None or len(data[k]) == 0` read as "the field is bad". */
  function TextMissing(d: Form, k: string): (r: Result<bool>)
    ensures k !in d ==> r == Failure(KeyError)
    ensures r == Success(false) <==> k in d && d[k].Str? && |d[k].s| > 0
    ensures r.Failure? ==> k !in d || !(d[k].NoneValue? || d[k].Str?)
    ensures k in d && !(d[k].NoneValue? || d[k].Str?) ==> r == Failure(TypeError)
  {
    if k !in d then Failure(KeyError)
    else match d[k]
      case NoneValue => Success(true)
      case Str(s) => Success(|s| == 0)
      case _ => Failure(TypeError)
  }

  /** `data[k] is None or not isinstance(data[k], C)` read as "the field is
      bad", with `ok` saying which values are instances of `C`. */
  function NotInstance(d: Form, k: string, ok: Value -> bool): (r: Result<bool>)
    ensures k !in d <==> r == Failure(KeyError)
    ensures r == Success(false) <==> k in d && d[k] != NoneValue && ok(d[k])
    ensures k in d ==> r.Success?
  {
    if k !in d then Failure(KeyError)
    else Success(d[k] == NoneValue || !ok(d[k]))
  }

  /** `data['refer'] is not None and not isinstance(...)` read as "the field
      is bad": a missing reference is accepted. */
  function ReferBad(d: Form): (r: Result<bool>)
    ensures "refer" !in d <==> r == Failure(KeyError)
    ensures "refer" in d ==> r.Success?
    ensures r == Success(false) <==> "refer" in d && (d["refer"] == NoneValue || d["refer"] == TargetDataObj)
  {
    if "refer" !in d then Failure(KeyError)
    else Success(d["refer"] != NoneValue && d["refer"] != TargetDataObj)
  }

  predicate IsType(v: Value) { v.TargetTypeObj? }
  predicate IsTarget(v: Value) { v.TargetObj? }
  predicate IsFloat(v: Value) { v.Float? }

  /** Run one check: an error propagates, a rejected field ends the
      validation with False, an accepted one goes on with `rest`. */
  function Then(bad: Result<bool>, rest: Result<bool>): (r: Result<bool>)
    ensures bad.Failure? ==> r == bad
    ensures bad == Success(true) ==> r == Success(false)
    ensures bad == Success(false) ==> r == rest
  {
    match bad
    case Failure(e) => Failure(e)
    case Success(b) => if b then Success(false) else rest
  }

  /** A non-empty string. */
  predicate GoodText(d: Form, k: string)
  {
    k in d && d[k].Str? && |d[k].s| > 0
  }

  /** A present value that is an instance of the class `ok` names. */
  predicate GoodInstance(d: Form, k: string, ok: Value -> bool)
  {
    k in d && d[k] != NoneValue && ok(d[k])
  }

  /** A field whose check cannot raise: present, and for the `len` checks
      either `None` or a string. */
  predicate Checkable(d: Form, k: string, usesLen: bool)
  {
    k in d && (usesLen ==> d[k].NoneValue? || d[k].Str?)
  }

  /** `target_add_check`: name, type, state, base and accum, in that order. */
  function TargetAddCheck(d: Form): (r: Result<bool>)
    ensures r == Success(true) <==>
              GoodText(d, "name") && GoodInstance(d, "type", IsType) && GoodText(d, "state")
              && GoodInstance(d, "base", IsFloat) && GoodInstance(d, "accum", IsFloat)
    ensures (Checkable(d, "name", true) && Checkable(d, "type", false) && Checkable(d, "state", true)
              && Checkable(d, "base", false) && Checkable(d, "accum", false)) ==> r.Success?
  {
    Then(TextMissing(d, "name"),
    Then(NotInstance(d, "type", IsType),
    Then(TextMissing(d, "state"),
    Then(NotInstance(d, "base", IsFloat),
    Then(NotInstance(d, "accum", IsFloat), Success(true))))))
  }

  /** `target_check`: name and type only. */
  function TargetCheck(d: Form): (r: Result<bool>)
    ensures r == Success(true) <==> GoodText(d, "name") && GoodInstance(d, "type", IsType)
    ensures Checkable(d, "name", true) && Checkable(d, "type", false) ==> r.Success?
  {
    Then(TextMissing(d, "name"),
    Then(NotInstance(d, "type", IsType), Success(true)))
  }

  /** `target_data_check`: target, refer, state, base and accum. */
  function TargetDataCheck(d: Form): (r: Result<bool>)
    ensures r == Success(true) <==>
              GoodInstance(d, "target", IsTarget)
              && "refer" in d && (d["refer"] == NoneValue || d["refer"] == TargetDataObj)
              && GoodText(d, "state") && GoodInstance(d, "base", IsFloat) && GoodInstance(d, "accum", IsFloat)
    ensures (Checkable(d, "target", false) && Checkable(d, "refer", false) && Checkable(d, "state", true)
              && Checkable(d, "base", false) && Checkable(d, "accum", false)) ==> r.Success?
  {
    Then(NotInstance(d, "target", IsTarget),
    Then(ReferBad(d),
    Then(TextMissing(d, "state"),
    Then(NotInstance(d, "base", IsFloat),
    Then(NotInstance(d, "accum", IsFloat), Success(true))))))
  }

  /** A form `target_add_check` accepts also passes `target_check`, whose
      checks are its first two. */
  lemma AddCheckImpliesTargetCheck(d: Form)
    requires TargetAddCheck(d) == Success(true)
    ensures TargetCheck(d) == Success(true)
  {
  }

  /** No range is checked: any float base and threshold, negative ones
      included, is accepted once the other fields are good. */
  lemma NoRangeCheck(name: string, state: string, base: real, accum: real)
    requires |name| > 0 && |state| > 0
    ensures TargetAddCheck(map["name" := Str(name), "type" := TargetTypeObj, "state" := Str(state),
                                "base" := Float(base), "accum" := Float(accum)]) == Success(true)
  {
  }

  /** An integer is not a float: an int base is rejected. */
  lemma IntBaseRejected(d: Form, n: int)
    requires GoodText(d, "name") && GoodInstance(d, "type", IsType) && GoodText(d, "state")
    ensures TargetAddCheck(d["base" := Int(n)]) == Success(false)
  {
  }
}
